=== FILE: README.md ===
# Haemodialysis patient registry — a Dafny model

The repository holds a patient registry for haemodialysis units, written three
times: a stand-alone page script (`app.js`), a React front end whose patient
table and case-input form are modelled here (`patient-table.tsx`,
`data-input-form.tsx`), and a Flask service holding the patient list in memory
(`app.py`). This project models the record-keeping core of all three.

- **Patient ids.** Ids are `P` followed by the 1-based position, zero-padded to
  three digits (`P001`). Both the page script and the service assign them this
  way. `PatientIds` proves that the id reads back as its number and that
  different numbers give different ids. `PageRecords` and `PatientApi` prove
  that every registration keeps a store numbered 1, 2, 3, … and so keeps every
  id different.
- **Age from a date of birth.** Both front ends subtract the years, then take
  one away before the birthday. `Dates.AgeOn` is proved to count the birthdays
  reached: the last one is on or before today and the next one is after it.
  The page's age field, the form's `calculateAge` and the date input's handler
  are built on it.
- **Searching and filtering.**
  - The page script hides table rows. `PageTable` proves that the rows still
    shown are exactly the rows of the matching records, in store order, and
    that the counter counts them.
  - The page filters on the *displayed label* of the diagnosis. So a filter
    equal to a record's own diagnosis code hides that record
    (`PageRecords.OwnCodeFilterHidesRecord`).
  - The React table filters a fixed list. `PatientTable` proves that the
    filtered list is a stable, order-preserving selection, and that the export
    buttons are enabled exactly when something matches.
  - The service's list endpoint filters by exact diagnosis equality.
- **Exports.** For every export body the model proves its line structure by
  splitting the text back into lines: the page's CSV, tab-separated and text
  report, and the React CSV, spreadsheet and text report.
  - Lines are also split back into cells for both CSV bodies, both
    tab-separated bodies and the React text report. The page's text report,
    joined with ` | `, is proved at the line level only.
  - A quote-aware CSV reader (`Strings.SplitCsv`) reads both CSV lines back
    into their fields even when a name or address holds commas, as every
    sample address does.
  - The spreadsheet cells (quotes doubled) are proved to decode back to the
    exact values. The page's CSV does not escape quotes, so two different rows
  can produce the same line (`PageExport.CsvQuotingAmbiguous`).
- **Form state.** `handleChange` changes only the named field. The
  date-of-birth handler keeps the age field in step with the date. A
  submission followed by its timer returns the form to its initial state.
- **Statistics.**
  - The page's cards show the store size and a rounded-down 26% share.
  - The service reports the number of records and the number of distinct
    names: never more than the records, and equal exactly when no name
    repeats.
  - It also reports the average age as an exact ratio: the sum of the ages
    over their number, bounded by the least and greatest age.
  - Its diagnosis histogram, built by the same insert-or-increment loop, is
    proved to hold each diagnosis once with its number of records, and its
    counts add up to the total.

Helper modules: `Optional`, `Seqs` (filter, map, subsequence), `Strings`
(ASCII lower-casing, `includes`, `join`/`split` with their round trips,
quoting), `Numerals` (decimal text, `padStart`, `parseInt`) and `Dates`.

## Model

| member | source | states |
|---|---|---|
| Strings.Lower | app.js:214 | `toLowerCase` keeps the length and lower-cases each character in place |
| Strings.Contains | app.js:225-226 | `includes` holds exactly when the term occurs at some position of the text |
| Numerals.PadStart | app.js:133 | `padStart(3, '0')` gives the larger of the text's length and the width, keeps the text as its suffix, and fills the front with the pad character |
| Numerals.ParseIntOfIntToString | app.js:136 | `parseInt` of a number's decimal text gives the number back |
| PatientIds.PatientId | app.js:133 | the id is `P` then digits whose value is the number: exactly four characters below 1000, and no leading zero from 100 on, so `P1000` and beyond are the plain numeral |
| PatientIds.PatientIdInjective | app.py:46 | two ids are equal exactly when their numbers are equal |
| Dates.AgeOn | app.js:172-178 | the age is the number of birthdays reached: the last one is not after today and the next one is after today |
| Dates.AgeUnique | data-input-form.tsx:50-54 | any count with that birthday property equals the computed age |
| Dates.AgeMonotone | app.js:172-178 | a later day never gives a smaller age |
| Dates.AgeNonNegative | app.js:172-178 | someone born on or before today has an age of at least 0 |
| Dates.AgeOnAnniversary | data-input-form.tsx:50-54 | on the k-th birthday itself the age is exactly k, not k - 1 |
| Dates.ParseFormatIso | app.js:140 | the `YYYY-MM-DD` text of a date with a four-digit year reads back as that date |
| Dates.AgeExample | app.js:6-7 | the seed record born 1970-03-15 is 54 on 2024-06-01 and 53 the day before its birthday |
| PageRecords.SeedNumbered | app.js:2-33 | the three seed records carry P001, P002, P003 |
| PageRecords.Register | app.js:129-143 | registration appends one record with the next position's id, the form's values, the parsed age field and the registration date, and leaves the earlier records untouched |
| PageRecords.RegisterKeepsNumbering | app.js:133 | registering into a sequentially numbered store keeps it sequentially numbered |
| PageRecords.RegisterAllKeepsNumbering | app.js:132-143 | after any run of registrations the ids are still sequential and pairwise different |
| PageRecords.SeedThenRegistrations | app.js:2-33 | after any registrations the seed stays in front and all ids differ |
| PageRecords.RegisterAllKeepsPrefix | app.js:143 | registrations only append: the records held before stay in front, unchanged |
| PatientIds.NumberedIdsDistinct | app.js:133 | in either store, sequential numbering implies pairwise different ids |
| PatientIds.NumberedSnoc | app.py:46-55 | appending an entry that carries the next number keeps a store sequentially numbered |
| PageRecords.AgeFieldAfterDobInput | app.js:167-181 | an empty date leaves the age field alone; a date gives text that parses to the age; an unreadable date gives text that does not parse |
| PageRecords.RegisteredAgeIsComputedAge | app.js:136 | registering right after entering a date of birth stores the age that date gives today |
| PageRecords.FormatDiagnosis | app.js:443-454 | the text differs from the input exactly when the input is a known code; known codes become labels; the result is never a code |
| PageRecords.FormatKnownCode | app.js:444-452 | the k-th code maps to the k-th label |
| PageRecords.FormatDiagnosisIdempotent | app.js:453 | formatting a formatted diagnosis changes nothing |
| PageRecords.EmptyFiltersMatch | app.js:225-226 | an empty search and no diagnosis filter match every record |
| PageRecords.LabelLacksOwnCode | app.js:444-452 | no label contains its own code |
| PageRecords.OwnCodeFilterHidesRecord | app.js:223-226 | a diagnosis filter equal to a record's own known code does not match that record |
| PageRecords.UpdateStatistics | app.js:426-432 | total and active cases are the store size; the month figure is the floor of 26% of it, never above the total |
| PageTable.LoadTable | app.js:184-204 | one visible row per record, in store order, holding that record's cells |
| PageTable.FilterTable | app.js:213-232 | every row keeps its cells and is hidden exactly when its own cells fail the search and diagnosis test, whatever it showed before |
| PageTable.RowMatchesRecord | app.js:219-228 | a rendered row passes the row test exactly when its record matches the search and diagnosis |
| PageTable.FilteredTableShowsMatchingRecords | app.js:213-232 | after filtering a loaded table, the shown rows are exactly the matching records' rows, in store order |
| PageTable.FilteredRecordsSubsequence | app.js:219-229 | the shown records are an order-preserving selection of the store, and filtering them again changes nothing |
| PageTable.LastFilterWins | app.js:228 | each filtering decides every row afresh, so only the last filter counts |
| PageTable.EmptyFiltersShowAll | app.js:225-228 | an empty search and no diagnosis filter show every row |
| PageTable.RecordCount | app.js:235-239 | the counter equals the number of rows not hidden, never above the number of rows |
| PageTable.ReloadShowsEveryRecord | app.js:184-204 | reloading the table shows one row per record, whatever was filtered before |
| PageTable.CountIsMatchingRecords | app.js:231-238 | after filtering, the counter equals the number of matching records |
| PageTable.RecordCountText | app.js:238 | the counter text is the fixed label followed by a numeral that reads back as the count |
| PageTable.CounterTextShowsMatches | app.js:231-238 | the counter text shown after filtering reads back as the number of matching records |
| PageExport.ExportData | app.js:457-489 | a download is produced exactly for `csv`, `excel` and `pdf`, with the fixed file name and MIME type |
| PageExport.CsvExportLines | app.js:464-470 | the CSV splits into the header line, one line per shown row in order, and a final empty piece |
| PageExport.CsvLineFields | app.js:467 | without commas in the cells, even a plain split at every comma gives back the quoted cells |
| PageExport.CsvLineReadsBack | app.js:467 | a quote-aware CSV reader takes a line back into its eight quoted cells, commas inside cells included, whenever no cell holds a double quote |
| PageExport.CsvQuotingAmbiguous | app.js:467 | for any texts x, y, z, the rows (x","y, z, …) and (x, y","z, …) differ yet give the same CSV line, because quotes are not escaped |
| PageExport.TabExportLines | app.js:471-477 | the spreadsheet body splits into the header line, one line per shown row in order, and a final empty piece |
| PageExport.TabLineCells | app.js:474 | without tabs in the cells, a spreadsheet line splits back into its eight cells |
| PageExport.ReportExportLines | app.js:478-487 | the report splits into its five fixed lines and one line per shown row |
| PageExport.EmptyCsvExport | app.js:459-470 | with every row hidden the CSV is the header line alone |
| PatientTable.SelectDiagnosis | patient-table.tsx:164 | the empty choice clears the filter; any other choice is kept as typed |
| PatientTable.FilteredData | patient-table.tsx:59-65 | the result holds only matching records from the data, and every matching record is in it |
| PatientTable.FilteredDataStable | patient-table.tsx:59-65 | the filtered list is an order-preserving subsequence, and filtering it again changes nothing |
| PatientTable.DiagnosisFilterIsExact | patient-table.tsx:63 | with an empty search, a chosen diagnosis keeps exactly the records with that diagnosis; no choice keeps all |
| PatientTable.ExportEnabledIffSomeMatch | patient-table.tsx:221 | the export buttons are enabled exactly when some record matches |
| PatientTable.Summary | patient-table.tsx:247-248 | the shown count is the number of filtered records, never above the total, which is the data's size |
| PatientTable.SampleSummary | patient-table.tsx:6-52 | with the component's own five records, nothing typed and no diagnosis chosen, the summary reads 5 of 5 |
| PatientTable.CsvRowFields | patient-table.tsx:73-81 | when no value holds a comma, even a plain split at every comma gives back the seven values, with only the name and the address wrapped in quotes |
| PatientTable.CsvRowReadsBack | patient-table.tsx:73-81 | a quote-aware CSV reader takes a line back into the seven values, with only the name and the address in quotes, whatever commas the name and address hold; it requires only that no value holds a double quote and that the five unquoted values hold no comma |
| PatientTable.CsvLines | patient-table.tsx:67-83 | the body `ExportToCsv` builds splits into the header and one line per record, has one newline per record and does not end in a newline |
| PatientTable.ExcelLines | patient-table.tsx:110-112 | the body `ExportToExcel` builds splits into the header row's line and one line per record |
| PatientTable.ExcelCellsDecode | patient-table.tsx:111 | every spreadsheet line splits at tabs into one cell per column, each decoding to the exact value |
| PatientTable.RowRoundTrip | patient-table.tsx:111 | doubling quotes and wrapping in quotes is undone by the cell decoder, for any tab-free values |
| PatientTable.ReportLines | patient-table.tsx:126-137 | the report `ExportToPdf` builds splits into its six fixed lines, one line per record, and a final empty piece |
| PatientTable.ReportRowFields | patient-table.tsx:136 | when none of the six printed values holds a tab, a report line splits at tabs into those values, the address left out |
| DataInputForm.FieldNamed | data-input-form.tsx:26-27 | a found field carries that name; no field is found only when no field has that name |
| DataInputForm.FieldNamedRoundTrip | data-input-form.tsx:14-21 | each field is found back by its own name |
| DataInputForm.Set | data-input-form.tsx:27 | the written field holds the value, every other field keeps its text |
| DataInputForm.HandleChange | data-input-form.tsx:25-28 | the named field holds the new value; every field with another name is unchanged |
| DataInputForm.LastChangeWins | data-input-form.tsx:25-28 | two changes to the same input leave only the second value |
| DataInputForm.ChangesCommute | data-input-form.tsx:25-28 | changes to differently named inputs give the same state in either order |
| DataInputForm.UnchangedTextKeepsState | data-input-form.tsx:25-28 | writing back a field's current text leaves the form unchanged |
| DataInputForm.CalculateAge | data-input-form.tsx:46-58 | empty exactly for an empty date; a date gives text that parses to the age; an unreadable date gives text that does not parse |
| DataInputForm.ChangeDateOfBirth | data-input-form.tsx:95-99 | the date is stored, the age field agrees with it, and the other four fields are unchanged |
| DataInputForm.ChangeDateOfBirthIdempotent | data-input-form.tsx:95-99 | entering the same date twice is entering it once |
| DataInputForm.EnteredDateGivesAge | data-input-form.tsx:95-99 | entering a date in the input's format makes the age field read as the exact age |
| DataInputForm.OtherChangesKeepAge | data-input-form.tsx:14-28 | the empty form has age and date in agreement, and edits to the other inputs keep them in agreement |
| DataInputForm.HandleSubmit | data-input-form.tsx:30-32 | submitting shows the banner and keeps the entered data |
| DataInputForm.ResetAfterSubmit | data-input-form.tsx:33-43 | whenever the timer fires, even after an earlier timer already hid the banner, it clears every field and hides the banner |
| DataInputForm.SubmitThenResetIsInitial | data-input-form.tsx:30-43 | a submission followed by its timer returns the form to its initial state |
| PatientApi.AddPatient | app.py:43-56 | one record is appended with id `P` plus the next number and the request's values; earlier records are untouched; the reply is the stored record |
| PatientApi.ServerDate | app.py:53 | the `%Y-%m-%d` stamp of a four-digit-year date reads back as that date |
| PatientApi.AddPatientKeepsNumbering | app.py:46 | adding to a sequentially numbered list keeps it sequentially numbered |
| PatientApi.AddAllNumbers | app.py:17 | starting from any numbered list, such as the empty one, every run of additions keeps the numbering and so keeps every id different |
| PatientApi.GetPatients | app.py:60-68 | no or an empty diagnosis returns every record; otherwise a record is listed exactly when it is stored with that diagnosis; either way the listing keeps the stored order (a subsequence of the store) |
| PatientApi.NameSetMembers | app.py:77 | the name set holds exactly the names that occur in the records |
| PatientApi.NameCountBound | app.py:77 | `active_patients` is at most the number of records, and equal to it exactly when no name repeats |
| PatientApi.AverageAge | app.py:78 | zero with no records; otherwise the sum of the ages over the number of records |
| PatientApi.SumAgesAddPatient | app.py:55 | adding a patient adds exactly its age to the sum the average is taken from |
| PatientApi.AverageAgeBounds | app.py:78 | the average lies between the least and the greatest age |
| PatientApi.BumpLookup | app.py:84 | the insert-or-increment step adds one to that diagnosis (1 when new) and leaves every other count alone |
| PatientApi.BumpKeepsKeysDistinct | app.py:84 | the step never creates a second entry for a key |
| PatientApi.BumpTotal | app.py:84 | the step raises the sum of the counts by one |
| PatientApi.TallyCorrect | app.py:82-84 | the histogram `Tally` builds has distinct keys; a diagnosis is present exactly when some record has it, with the number of such records; the counts sum to the total |
| PatientApi.HistogramAgreesWithListing | app.py:66 | a diagnosis's count equals the number of records the list endpoint returns for it |
| PatientApi.GetStatistics | app.py:72-86 | the total; the active count is the size of the set of stored names, at most the total and equal to it exactly when no name repeats; the average; and a histogram whose counts are the per-diagnosis record counts |

## Left out

- Rendering, the DOM, React state plumbing, charts, login, navigation and the dashboards are not modelled. So are `downloadFile`, `Blob`/object URLs, timers' delays and the success messages. The exports are modelled as the text and file metadata they hand over.
- The clock is a parameter (`today`, `generatedOn`, `registeredOn`), and time zones are not modelled. `new Date(dob)` reads an ISO date as UTC while the `get…` methods read local time, which can shift the date by a day.
- Dates.ParseIso: accepts only a calendar-valid `YYYY-MM-DD`. A JavaScript engine also accepts other forms and rolls over out-of-range days. An unreadable date yields NaN in the source and `None`/`"NaN"` here.
- Strings.Lower: lower-cases ASCII letters only; full Unicode case mapping is not modelled.
- Numerals.ParseInt: strict decimal with an optional minus sign. `parseInt`'s tolerance of whitespace, a `+` sign and trailing characters is not modelled.
- PageTable.RowCells: the cell text is taken verbatim. HTML parsing of text interpolated into `innerHTML` is not modelled.
- PageRecords.FormatDiagnosis: lookups of inherited object keys such as `constructor` are not modelled.
- PageRecords.UpdateStatistics: does not model the average-age card (`toFixed(1)` of a float, NaN for an empty store). The month figure uses the exact 26/100 in place of the float 0.26. The two floors agree wherever the float product is exact enough, which covers every realistic store size.
- PatientTable.CsvRowReadsBack: a value holding a double quote is not read back. The component writes it unescaped, so such a line has no faithful reading (`PageExport.CsvQuotingAmbiguous` shows two rows giving one line).
- PageExport.CsvLineReadsBack: likewise requires quote-free cells, because the page does not escape quotes.
- PageExport.ReportExportLines: the ` | `-joined cells of a report line are not split back; a cell holding ` | ` would make the columns ambiguous.
- PatientApi.AverageAge: an exact ratio; Python returns the nearest float, and 0 as an integer for an empty list.
- PatientApi.Patient: `age` is an integer, and every field is present. Missing keys, JSON `null`, and non-numeric ages (which make `sum` fail) are not modelled.
- PatientApi.ServerDate: stated for years 1000 to 9999 only; `strftime('%Y')` for earlier years is platform-dependent.
- DataInputForm.HandleChange: for a name that is none of the six fields, the source adds an extra key to the state object. The model keeps the six fields unchanged and has nowhere to put the extra key.
- The browser's `required`-field validation, which blocks a submission with empty fields, is not modelled: both submit handlers accept any field values.
- The app.js registration form's `reset()` and the clearing of the age field are not modelled.
- PatientTable: the download file names `patient-report-<date>.<ext>` and the Blob MIME types are not modelled.
- The `hospital_id` and `range` query arguments are read but unused by the source, and are not modelled. Neither is the `hospitals_data` table.
- The `login`, `export_csv` and `export_pdf` endpoints of app.py (reportlab, `csv.DictWriter`) are not modelled, and database.py is not part of this model.

=== FILE: data_input_form.dfy ===
/** The patient case input form (data-input-form.tsx): its six text fields,
    the generic change handler, the age derived from the date of birth, and
    the submit-then-reset cycle. */
module DataInputForm {

  import opened Optional
  import opened Numerals
  import opened Dates

  /** The form's state object: every field holds the text of its input. */
  datatype FormData = FormData(
    patientName: string,
    dateOfBirth: string,
    age: string,
    gender: string,
    address: string,
    diagnosis: string)

  /** The state the form starts in and is reset to. */
  const EmptyForm: FormData := FormData("", "", "", "", "", "")

  /** The six inputs, named by their `name` attribute. */
  datatype Field = PatientName | DateOfBirth | Age | Gender | Address | Diagnosis

  function FieldName(f: Field): string {
    match f
    case PatientName => "patientName"
    case DateOfBirth => "dateOfBirth"
    case Age => "age"
    case Gender => "gender"
    case Address => "address"
    case Diagnosis => "diagnosis"
  }

  /** The field an input's `name` designates, if any. */
  function FieldNamed(name: string): (r: Option<Field>)
    ensures r.Some? ==> FieldName(r.value) == name
    ensures r.None? ==> forall f :: FieldName(f) != name
  {
    if name == "patientName" then Some(PatientName)
    else if name == "dateOfBirth" then Some(DateOfBirth)
    else if name == "age" then Some(Age)
    else if name == "gender" then Some(Gender)
    else if name == "address" then Some(Address)
    else if name == "diagnosis" then Some(Diagnosis)
    else None
  }

  /** Different fields have different names, so a name finds its field back. */
  lemma FieldNamedRoundTrip(f: Field)
    ensures FieldNamed(FieldName(f)) == Some(f)
  {
  }

  function Get(d: FormData, f: Field): string {
    match f
    case PatientName => d.patientName
    case DateOfBirth => d.dateOfBirth
    case Age => d.age
    case Gender => d.gender
    case Address => d.address
    case Diagnosis => d.diagnosis
  }

  /** `{ ...prev, [name]: value }` for a known field: that field holds the
      new text and every other field keeps its own. */
  function Set(d: FormData, f: Field, value: string): (r: FormData)
    ensures Get(r, f) == value
    ensures forall g :: g != f ==> Get(r, g) == Get(d, g)
  {
    match f
    case PatientName => d.(patientName := value)
    case DateOfBirth => d.(dateOfBirth := value)
    case Age => d.(age := value)
    case Gender => d.(gender := value)
    case Address => d.(address := value)
    case Diagnosis => d.(diagnosis := value)
  }

  /** Two form states with the same text in every field are the same state. */
  lemma FormDataExtensional(a: FormData, b: FormData)
    requires forall f :: Get(a, f) == Get(b, f)
    ensures a == b
  {
    assert Get(a, PatientName) == Get(b, PatientName) && Get(a, DateOfBirth) == Get(b, DateOfBirth);
    assert Get(a, Age) == Get(b, Age) && Get(a, Gender) == Get(b, Gender);
    assert Get(a, Address) == Get(b, Address) && Get(a, Diagnosis) == Get(b, Diagnosis);
  }

  /** `handleChange`: the input named `name` now holds `value`; every field
      with another name is unchanged. */
  function HandleChange(d: FormData, name: string, value: string): (r: FormData)
    ensures FieldNamed(name).Some? ==> Get(r, FieldNamed(name).value) == value
    ensures forall g :: FieldName(g) != name ==> Get(r, g) == Get(d, g)
  {
    match FieldNamed(name)
    case Some(f) => Set(d, f, value)
    case None => d
  }

  /** Typing twice into the same input keeps only the second text. */
  lemma LastChangeWins(d: FormData, name: string, first: string, second: string)
    ensures HandleChange(HandleChange(d, name, first), name, second) == HandleChange(d, name, second)
  {
    var a := HandleChange(HandleChange(d, name, first), name, second);
    var b := HandleChange(d, name, second);
    forall g
      ensures Get(a, g) == Get(b, g)
    {
      if FieldName(g) == name {
        FieldNamedRoundTrip(g);
      }
    }
    FormDataExtensional(a, b);
  }

  /** Changes to inputs with different names do not interfere: either order
      gives the same state. */
  lemma ChangesCommute(d: FormData, n1: string, v1: string, n2: string, v2: string)
    requires n1 != n2
    ensures HandleChange(HandleChange(d, n1, v1), n2, v2) == HandleChange(HandleChange(d, n2, v2), n1, v1)
  {
    var a := HandleChange(HandleChange(d, n1, v1), n2, v2);
    var b := HandleChange(HandleChange(d, n2, v2), n1, v1);
    forall g
      ensures Get(a, g) == Get(b, g)
    {
      if FieldName(g) == n1 || FieldName(g) == n2 {
        FieldNamedRoundTrip(g);
      }
    }
    FormDataExtensional(a, b);
  }

  /** Writing back the text an input already holds changes nothing. */
  lemma UnchangedTextKeepsState(d: FormData, f: Field)
    ensures HandleChange(d, FieldName(f), Get(d, f)) == d
  {
    FieldNamedRoundTrip(f);
    var r := HandleChange(d, FieldName(f), Get(d, f));
    forall g
      ensures Get(r, g) == Get(d, g)
    {
      if FieldName(g) == FieldName(f) {
        FieldNamedRoundTrip(g);
      }
    }
    FormDataExtensional(r, d);
  }

  /** `calculateAge`: empty for an empty date, otherwise the whole years
      since the date of birth as decimal text, or "NaN" when the text is not
      a date. `today` is the clock's reading. */
  function CalculateAge(dob: string, today: Date): (r: string)
    ensures r == "" <==> dob == ""
    ensures dob != "" && ParseIso(dob).Some? ==> ParseInt(r) == Some(AgeOn(ParseIso(dob).value, today))
    ensures dob != "" && ParseIso(dob).None? ==> ParseInt(r) == None
  {
    if dob == "" then ""
    else
      match ParseIso(dob)
      case Some(birth) =>
        ParseIntOfIntToString(AgeOn(birth, today));
        IntToString(AgeOn(birth, today))
      case None => "NaN"
  }

  /** The age field shows what the date of birth gives today. */
  predicate AgeMatchesBirthDate(d: FormData, today: Date) {
    d.age == CalculateAge(d.dateOfBirth, today)
  }

  /** The date input's handler: the generic change, then the age recomputed
      from the new date. */
  function ChangeDateOfBirth(d: FormData, value: string, today: Date): (r: FormData)
    ensures r.dateOfBirth == value
    ensures AgeMatchesBirthDate(r, today)
    ensures forall g :: g != DateOfBirth && g != Age ==> Get(r, g) == Get(d, g)
  {
    var changed := HandleChange(d, "dateOfBirth", value);
    changed.(age := CalculateAge(value, today))
  }

  /** Entering a date and then the same date again is the same as entering it once. */
  lemma ChangeDateOfBirthIdempotent(d: FormData, value: string, today: Date)
    ensures ChangeDateOfBirth(ChangeDateOfBirth(d, value, today), value, today) == ChangeDateOfBirth(d, value, today)
  {
  }

  /** A date of birth entered in the form's own format yields the exact age
      in years. */
  lemma EnteredDateGivesAge(d: FormData, birth: Date, today: Date)
    requires ValidDate(birth) && 0 <= birth.year <= 9999
    ensures ParseInt(ChangeDateOfBirth(d, FormatIso(birth), today).age) == Some(AgeOn(birth, today))
  {
    ParseFormatIso(birth);
    assert FormatIso(birth) != "" by {
      assert ParseIso(FormatIso(birth)).Some?;
    }
  }

  /** The agreement between age and date of birth holds initially and
      survives every edit of another input. */
  lemma OtherChangesKeepAge(d: FormData, name: string, value: string, today: Date)
    requires AgeMatchesBirthDate(d, today)
    requires name != "dateOfBirth" && name != "age"
    ensures AgeMatchesBirthDate(EmptyForm, today)
    ensures AgeMatchesBirthDate(HandleChange(d, name, value), today)
  {
    var r := HandleChange(d, name, value);
    assert Get(r, DateOfBirth) == Get(d, DateOfBirth);
    assert Get(r, Age) == Get(d, Age);
  }

  /** The component's whole state: the fields and the success banner flag. */
  datatype FormState = FormState(data: FormData, submitted: bool)

  const InitialState: FormState := FormState(EmptyForm, false)

  /** `handleSubmit`: the banner shows; the data stays until the timer fires. */
  function HandleSubmit(s: FormState): (r: FormState)
    ensures r.submitted && r.data == s.data
  {
    s.(submitted := true)
  }

  /** The timer two seconds after a submission: every field cleared and the
      banner hidden, whatever the state is when it fires (an earlier timer
      may already have hidden the banner). The delay itself is not modelled. */
  function ResetAfterSubmit(s: FormState): (r: FormState)
    ensures !r.submitted
    ensures forall f :: Get(r.data, f) == ""
  {
    FormState(EmptyForm, false)
  }

  /** A submission followed by its timer returns the form to its initial
      state, whatever had been entered. */
  lemma SubmitThenResetIsInitial(s: FormState)
    ensures ResetAfterSubmit(HandleSubmit(s)) == InitialState
  {
  }
}

=== FILE: dates.dfy ===
/** Calendar dates as (year, month, day) triples, the ISO `YYYY-MM-DD` text a
    date input holds, and the age rule both front ends apply to a date of birth. */
module Dates {

  import opened Optional
  import opened Numerals

  /** A date with the month counted 1–12 and the day 1–31. */
  datatype Date = Date(year: int, month: int, day: int)

  predicate IsLeapYear(y: int) {
    (y % 4 == 0 && y % 100 != 0) || y % 400 == 0
  }

  function DaysInMonth(y: int, m: int): int
    requires 1 <= m <= 12
  {
    if m == 2 then (if IsLeapYear(y) then 29 else 28)
    else if m == 4 || m == 6 || m == 9 || m == 11 then 30
    else 31
  }

  /** A day that exists in the proleptic Gregorian calendar. */
  predicate ValidDate(d: Date) {
    1 <= d.month <= 12 && 1 <= d.day <= DaysInMonth(d.year, d.month)
  }

  /** `a` comes strictly before `b`: the triples compared lexicographically. */
  predicate Before(a: Date, b: Date) {
    || a.year < b.year
    || (a.year == b.year && a.month < b.month)
    || (a.year == b.year && a.month == b.month && a.day < b.day)
  }

  /** The `k`-th birthday, written on the birth month and day (29 February
      included, whether or not that year has one). */
  function Anniversary(dob: Date, k: int): Date {
    Date(dob.year + k, dob.month, dob.day)
  }

  /** The age rule of `calculateAge`: the difference of the years, less one
      when today's (month, day) comes before the birth (month, day). The result
      is the number of birthdays reached: the last one is on or before today,
      the next one is after it. */
  function AgeOn(dob: Date, today: Date): (age: int)
    ensures !Before(today, Anniversary(dob, age))
    ensures Before(today, Anniversary(dob, age + 1))
  {
    var years := today.year - dob.year;
    if today.month < dob.month || (today.month == dob.month && today.day < dob.day) then years - 1
    else years
  }

  /** Later birthdays come later in the calendar. */
  lemma AnniversariesIncrease(dob: Date, j: int, k: int)
    requires j < k
    ensures Before(Anniversary(dob, j), Anniversary(dob, k))
  {
  }

  lemma BeforeTransitive(a: Date, b: Date, c: Date)
    requires Before(a, b) && Before(b, c)
    ensures Before(a, c)
  {
  }

  /** The age is the only count of birthdays with the property above. */
  lemma AgeUnique(dob: Date, today: Date, k: int)
    requires !Before(today, Anniversary(dob, k))
    requires Before(today, Anniversary(dob, k + 1))
    ensures k == AgeOn(dob, today)
  {
    var age := AgeOn(dob, today);
    if k < age {
      if k + 1 < age {
        AnniversariesIncrease(dob, k + 1, age);
        BeforeTransitive(today, Anniversary(dob, k + 1), Anniversary(dob, age));
      }
    } else if age < k {
      if age + 1 < k {
        AnniversariesIncrease(dob, age + 1, k);
        BeforeTransitive(today, Anniversary(dob, age + 1), Anniversary(dob, k));
      }
    }
  }

  /** On the `k`-th birthday the age is exactly `k`. */
  lemma AgeOnAnniversary(dob: Date, k: int)
    ensures AgeOn(dob, Anniversary(dob, k)) == k
  {
    AnniversariesIncrease(dob, k, k + 1);
    AgeUnique(dob, Anniversary(dob, k), k);
  }

  /** A later day never gives a smaller age. */
  lemma AgeMonotone(dob: Date, earlier: Date, later: Date)
    requires !Before(later, earlier)
    ensures AgeOn(dob, earlier) <= AgeOn(dob, later)
  {
  }

  /** Someone born on or before today has a non-negative age. */
  lemma AgeNonNegative(dob: Date, today: Date)
    requires !Before(today, dob)
    ensures AgeOn(dob, today) >= 0
  {
  }

  /** Two decimal digits, as `toISOString` writes a month or a day. */
  function TwoDigits(n: nat): string {
    PadStart(NatToString(n), 2, '0')
  }

  /** `date.toISOString().split('T')[0]`: `YYYY-MM-DD`, with ECMAScript's
      sign and six digits for years outside 0–9999. */
  function FormatIso(d: Date): string
    requires ValidDate(d)
  {
    var year :=
      if 0 <= d.year <= 9999 then PadStart(NatToString(d.year), 4, '0')
      else if d.year < 0 then "-" + PadStart(NatToString(-d.year), 6, '0')
      else "+" + PadStart(NatToString(d.year), 6, '0');
    year + "-" + TwoDigits(d.month) + "-" + TwoDigits(d.day)
  }

  /** Reads the `YYYY-MM-DD` value of a date input; anything that is not a
      real calendar day in that form is an invalid date. */
  function ParseIso(s: string): (r: Option<Date>)
    ensures r.Some? ==> ValidDate(r.value) && 0 <= r.value.year <= 9999
  {
    if |s| == 10 && s[4] == '-' && s[7] == '-'
       && AllDigits(s[..4]) && AllDigits(s[5..7]) && AllDigits(s[8..]) then
      var d := Date(DigitsValue(s[..4]), DigitsValue(s[5..7]), DigitsValue(s[8..]));
      FourDigitsBelow10000(s[..4]);
      if ValidDate(d) then Some(d) else None
    else None
  }

  lemma {:induction false} FourDigitsBelow10000(s: string)
    requires |s| <= 4 && AllDigits(s)
    ensures DigitsValue(s) < Pow10(|s|) <= 10000
  {
    if |s| > 0 {
      FourDigitsBelow10000(s[..|s| - 1]);
    }
  }

  lemma PaddedWidth(n: nat, w: nat)
    requires 1 <= w && n < Pow10(w)
    ensures |PadStart(NatToString(n), w, '0')| == w
    ensures AllDigits(PadStart(NatToString(n), w, '0'))
    ensures DigitsValue(PadStart(NatToString(n), w, '0')) == n
  {
    NatToStringLength(n, w);
    ZeroPaddedValue(n, w);
  }

  lemma IsoPieces(y: string, m: string, dd: string)
    requires |y| == 4 && |m| == 2 && |dd| == 2
    ensures var s := y + "-" + m + "-" + dd;
      |s| == 10 && s[4] == '-' && s[7] == '-' && s[..4] == y && s[5..7] == m && s[8..] == dd
  {
  }

  /** Reading back a formatted date with a four-digit year gives the date. */
  lemma ParseFormatIso(d: Date)
    requires ValidDate(d) && 0 <= d.year <= 9999
    ensures ParseIso(FormatIso(d)) == Some(d)
  {
    assert Pow10(2) == 100 && Pow10(4) == 10000;
    var y := PadStart(NatToString(d.year), 4, '0');
    var m := TwoDigits(d.month);
    var dd := TwoDigits(d.day);
    PaddedWidth(d.year, 4);
    PaddedWidth(d.month, 2);
    PaddedWidth(d.day, 2);
    assert FormatIso(d) == y + "-" + m + "-" + dd;
    IsoPieces(y, m, dd);
  }

  /** For example: born 15 March 1970, on 1 June 2024 the age is 54. */
  lemma AgeExample()
    ensures AgeOn(Date(1970, 3, 15), Date(2024, 6, 1)) == 54
    ensures AgeOn(Date(1970, 3, 15), Date(2024, 3, 14)) == 53
  {
  }
}

=== FILE: numerals.dfy ===
/** Decimal numerals: `String(n)`, `padStart`, `parseInt`, and the digit
    strings read back from them. */
module Numerals {

  import opened Optional
  import opened Strings

  predicate IsDigit(c: char) {
    '0' <= c <= '9'
  }

  predicate AllDigits(s: string) {
    forall i :: 0 <= i < |s| ==> IsDigit(s[i])
  }

  function DigitChar(d: int): (c: char)
    requires 0 <= d < 10
    ensures IsDigit(c)
  {
    ('0' as int + d) as char
  }

  function DigitValue(c: char): int
    requires IsDigit(c)
  {
    c as int - '0' as int
  }

  /** `String(n)` for a non-negative integer: its decimal numeral, with no
      leading zero except for zero itself. */
  function NatToString(n: nat): (r: string)
    ensures |r| >= 1 && AllDigits(r)
    ensures r[0] == '0' ==> n == 0
    decreases n
  {
    if n < 10 then [DigitChar(n)] else NatToString(n / 10) + [DigitChar(n % 10)]
  }

  /** The number denoted by a string of decimal digits (zero for the empty string). */
  function DigitsValue(s: string): nat
    requires AllDigits(s)
  {
    if |s| == 0 then 0 else DigitsValue(s[..|s| - 1]) * 10 + DigitValue(s[|s| - 1])
  }

  /** Reading a numeral back gives the number it was written from. */
  lemma {:induction false} DigitsValueOfNatToString(n: nat)
    ensures DigitsValue(NatToString(n)) == n
  {
    if n >= 10 {
      DigitsValueOfNatToString(n / 10);
      var r := NatToString(n);
      assert r[..|r| - 1] == NatToString(n / 10);
    }
  }

  lemma {:induction false} ZerosValue(k: nat)
    ensures AllDigits(Repeat('0', k)) && DigitsValue(Repeat('0', k)) == 0
  {
    if k > 0 {
      ZerosValue(k - 1);
      assert Repeat('0', k)[..k - 1] == Repeat('0', k - 1);
    }
  }

  /** Leading zeros do not change the number a digit string denotes. */
  lemma {:induction false} DigitsValueLeadingZeros(k: nat, s: string)
    requires AllDigits(s)
    ensures AllDigits(Repeat('0', k) + s)
    ensures DigitsValue(Repeat('0', k) + s) == DigitsValue(s)
  {
    var z := Repeat('0', k) + s;
    if |s| == 0 {
      ZerosValue(k);
      assert z == Repeat('0', k);
    } else {
      assert z[..|z| - 1] == Repeat('0', k) + s[..|s| - 1];
      DigitsValueLeadingZeros(k, s[..|s| - 1]);
    }
  }

  /** `s.padStart(width, fill)` for a one-character filler. */
  function PadStart(s: string, width: nat, fill: char): (r: string)
    ensures |r| == if |s| >= width then |s| else width
    ensures r[|r| - |s|..] == s
    ensures forall i :: 0 <= i < |r| - |s| ==> r[i] == fill
  {
    if |s| >= width then s else Repeat(fill, width - |s|) + s
  }

  /** A zero-padded numeral still denotes its number. */
  lemma ZeroPaddedValue(n: nat, width: nat)
    ensures AllDigits(PadStart(NatToString(n), width, '0'))
    ensures DigitsValue(PadStart(NatToString(n), width, '0')) == n
  {
    var s := NatToString(n);
    DigitsValueOfNatToString(n);
    if |s| < width {
      DigitsValueLeadingZeros(width - |s|, s);
    }
  }

  function Pow10(k: nat): nat {
    if k == 0 then 1 else 10 * Pow10(k - 1)
  }

  /** A number below 10^w is written with at most w digits. */
  lemma {:induction false} NatToStringLength(n: nat, w: nat)
    requires 1 <= w && n < Pow10(w)
    ensures |NatToString(n)| <= w
  {
    if n >= 10 {
      assert Pow10(1) == 10;
      assert w >= 2;
      NatToStringLength(n / 10, w - 1);
    }
  }

  lemma {:induction false} Pow10Positive(k: nat)
    ensures Pow10(k) >= 1
  {
    if k > 0 {
      Pow10Positive(k - 1);
    }
  }

  /** A number of at least 10^(w-1) is written with at least w digits. */
  lemma {:induction false} NatToStringLengthAtLeast(n: nat, w: nat)
    requires 1 <= w && Pow10(w - 1) <= n
    ensures |NatToString(n)| >= w
  {
    if w > 1 {
      Pow10Positive(w - 2);
      assert n >= 10 && Pow10(w - 1) == 10 * Pow10(w - 2);
      NatToStringLengthAtLeast(n / 10, w - 1);
    }
  }

  /** `String(i)` / `i.toString()` for any integer. */
  function IntToString(i: int): (r: string)
    ensures |r| >= 1
  {
    if i < 0 then "-" + NatToString(-i) else NatToString(i)
  }

  /** `parseInt` of a field that holds an optional minus sign and decimal
      digits and nothing else; anything else (the empty string, "NaN") is
      JavaScript's NaN, here `None`. */
  function ParseInt(s: string): Option<int> {
    if |s| >= 2 && s[0] == '-' && AllDigits(s[1..]) then
      var magnitude: int := DigitsValue(s[1..]);
      Some(-magnitude)
    else if |s| >= 1 && AllDigits(s) then Some(DigitsValue(s))
    else None
  }

  /** Parsing a printed integer gives the integer back. */
  lemma ParseIntOfIntToString(i: int)
    ensures ParseInt(IntToString(i)) == Some(i)
  {
    var r := IntToString(i);
    if i < 0 {
      DigitsValueOfNatToString(-i);
      assert r[1..] == NatToString(-i);
    } else {
      DigitsValueOfNatToString(i);
      assert !IsDigit('-');
    }
  }
}

=== FILE: optional.dfy ===
/** The absent-or-present value used for the optional inputs of every variant
    (an unset diagnosis filter, an unparseable date, JavaScript's NaN). */
module Optional {

  datatype Option<+T> = None | Some(value: T)
}

=== FILE: page_export.dfy ===
/** `exportData` of the page script (app.js): the CSV, tab-separated and
    plain-text report bodies built from the rows still shown. */
module PageExport {

  import opened Optional
  import opened Seqs
  import opened Strings
  import opened PageTable

  /** The column titles of every export. */
  const Headers: seq<string> :=
    ["ID", "Name", "DOB", "Age", "Gender", "Address", "Diagnosis", "Date Registered"]

  /** What `downloadFile` receives. */
  datatype Download = Download(content: string, fileName: string, mimeType: string)

  /** A CSV line: every cell wrapped in double quotes, nothing escaped, comma-joined. */
  function CsvLine(c: Cells): string {
    Join(Map(CellTexts(c), Quote), ",")
  }

  /** A spreadsheet line: the bare cells, tab-joined. */
  function TabLine(c: Cells): string {
    Join(CellTexts(c), "\t")
  }

  /** A report line: the bare cells joined by ` | `. */
  function ReportLine(c: Cells): string {
    Join(CellTexts(c), " | ")
  }

  const ReportTitle: string := "HAEMODIALYSIS PATIENT RECORDS REPORT"

  function CsvLines(view: seq<Cells>): seq<string> {
    [Join(Headers, ",")] + Map(view, CsvLine)
  }

  function TabLines(view: seq<Cells>): seq<string> {
    [Join(Headers, "\t")] + Map(view, TabLine)
  }

  /** Title, time stamp, a blank line, the headers and a rule of 150 `=`. */
  function ReportPreamble(generatedOn: string): seq<string> {
    [ReportTitle, "Generated on: " + generatedOn, "", Join(Headers, " | "), Repeat('=', 150)]
  }

  /** The preamble, then one line per row. */
  function ReportLines(view: seq<Cells>, generatedOn: string): seq<string> {
    ReportPreamble(generatedOn) + Map(view, ReportLine)
  }

  /** `exportData(format)`: the body of the download, every line ended by a
      newline; an unknown format produces no download. `generatedOn` is the
      clock's `toLocaleString()` text. */
  function ExportData(rows: seq<Row>, format: string, generatedOn: string): (d: Option<Download>)
    ensures d.Some? <==> format == "csv" || format == "excel" || format == "pdf"
    ensures format == "csv" ==> d.value.fileName == "patient-records.csv" && d.value.mimeType == "text/csv"
    ensures format == "excel" ==> d.value.fileName == "patient-records.xlsx" && d.value.mimeType == "text/plain"
    ensures format == "pdf" ==> d.value.fileName == "patient-records.pdf" && d.value.mimeType == "text/plain"
  {
    var view := VisibleCells(rows);
    if format == "csv" then
      Some(Download(Terminated(CsvLines(view), '\n'), "patient-records.csv", "text/csv"))
    else if format == "excel" then
      Some(Download(Terminated(TabLines(view), '\n'), "patient-records.xlsx", "text/plain"))
    else if format == "pdf" then
      Some(Download(Terminated(ReportLines(view, generatedOn), '\n'), "patient-records.pdf", "text/plain"))
    else
      None
  }

  /** No cell of the shown rows holds the character `c`. */
  predicate CellsAvoid(view: seq<Cells>, c: char) {
    forall k, j :: 0 <= k < |view| && 0 <= j < 8 ==> c !in CellTexts(view[k])[j]
  }

  lemma QuoteAvoids(s: string, c: char)
    requires c != '"' && c !in s
    ensures c !in Quote(s)
  {
  }

  lemma CsvLineAvoids(cells: Cells, c: char)
    requires c != '"' && c != ','
    requires forall j :: 0 <= j < 8 ==> c !in CellTexts(cells)[j]
    ensures c !in CsvLine(cells)
  {
    var quoted := Map(CellTexts(cells), Quote);
    forall j | 0 <= j < 8
      ensures c !in quoted[j]
    {
      QuoteAvoids(CellTexts(cells)[j], c);
    }
    JoinAvoids(quoted, ",", c);
  }

  lemma HeadersAvoidNewline()
    ensures forall j :: 0 <= j < |Headers| ==> '\n' !in Headers[j]
  {
  }

  /** The CSV body is the header line and one line per shown row, in table
      order, each ended by a newline: splitting at newlines gives exactly
      those lines and an empty tail. */
  lemma CsvExportLines(rows: seq<Row>, generatedOn: string)
    requires CellsAvoid(VisibleCells(rows), '\n')
    ensures var content := ExportData(rows, "csv", generatedOn).value.content;
      && Split(content, '\n') == [Join(Headers, ",")] + Map(VisibleCells(rows), CsvLine) + [""]
      && Occurrences(content, '\n') == |VisibleCells(rows)| + 1
  {
    var view := VisibleCells(rows);
    var lines := CsvLines(view);
    HeadersAvoidNewline();
    JoinAvoids(Headers, ",", '\n');
    forall k | 0 <= k < |lines|
      ensures '\n' !in lines[k]
    {
      if k > 0 {
        CsvLineAvoids(view[k - 1], '\n');
      }
    }
    SplitTerminated(lines, '\n');
  }

  /** A CSV line splits at commas into the quoted cells when no cell holds a comma. */
  lemma CsvLineFields(cells: Cells)
    requires forall j :: 0 <= j < 8 ==> ',' !in CellTexts(cells)[j]
    ensures Split(CsvLine(cells), ',') == Map(CellTexts(cells), Quote)
  {
    var quoted := Map(CellTexts(cells), Quote);
    forall j | 0 <= j < 8
      ensures ',' !in quoted[j]
    {
      QuoteAvoids(CellTexts(cells)[j], ',');
    }
    SplitJoin(quoted, ',');
  }

  /** A CSV reader takes a line apart into its eight quoted cells: commas
      inside a cell are protected by the quotes, and only a quote inside a
      cell, which the page does not escape, would break the reading. */
  lemma CsvLineReadsBack(cells: Cells)
    requires forall j :: 0 <= j < 8 ==> '"' !in CellTexts(cells)[j]
    ensures SplitCsv(CsvLine(cells), false) == Map(CellTexts(cells), Quote)
  {
    var quoted := Map(CellTexts(cells), Quote);
    forall j | 0 <= j < 8
      ensures CsvField(quoted[j])
    {
      var t := CellTexts(cells)[j];
      assert quoted[j] == Quote(t);
      assert Quote(t)[1..|Quote(t)| - 1] == t;
    }
    SplitCsvJoin(quoted);
  }

  lemma JoinFrontPair(p0: string, p1: string, rest: seq<string>, sep: string)
    requires |rest| > 0
    ensures Join([p0, p1] + rest, sep) == (p0 + sep + p1) + sep + Join(rest, sep)
  {
    var parts := [p0, p1] + rest;
    assert parts[1..] == [p1] + rest && parts[1..][1..] == rest;
  }

  /** A cell holding `x","y` next to `z` quotes to the same text as `x`
      next to `y","z`. */
  lemma QuotedSeparatorShifts(x: string, y: string, z: string)
    ensures Quote(x + "\",\"" + y) + "," + Quote(z) == Quote(x) + "," + Quote(y + "\",\"" + z)
  {
    var q := "\"";
    var mid := "\",\"";
    assert Quote(x + mid + y) + "," + Quote(z) == q + x + mid + y + (q + "," + q) + z + q;
    assert mid == q + "," + q;
    assert Quote(x) + "," + Quote(y + mid + z) == q + x + (q + "," + q) + y + mid + z + q;
  }

  /** Because quotes inside a cell are not escaped, two different rows can
      produce the same CSV line: the separator `","` inside the first cell
      can as well be read inside the second. */
  lemma CsvQuotingAmbiguous(x: string, y: string, z: string)
    ensures var a := Cells(x + "\",\"" + y, z, "", "", "", "", "", "");
            var b := Cells(x, y + "\",\"" + z, "", "", "", "", "", "");
            a != b && CsvLine(a) == CsvLine(b)
  {
    var a := Cells(x + "\",\"" + y, z, "", "", "", "", "", "");
    var b := Cells(x, y + "\",\"" + z, "", "", "", "", "", "");
    assert |a.id| != |b.id|;
    CsvLineFront(a);
    CsvLineFront(b);
    assert CellTexts(a)[2..] == CellTexts(b)[2..];
    QuotedSeparatorShifts(x, y, z);
  }

  /** A CSV line is its first two quoted cells, then the rest. */
  lemma CsvLineFront(c: Cells)
    ensures CsvLine(c) == (Quote(c.id) + "," + Quote(c.name)) + "," + Join(Map(CellTexts(c)[2..], Quote), ",")
  {
    var rest := Map(CellTexts(c)[2..], Quote);
    assert Map(CellTexts(c), Quote) == [Quote(c.id), Quote(c.name)] + rest;
    JoinFrontPair(Quote(c.id), Quote(c.name), rest, ",");
  }

  /** The spreadsheet body: header line and one line per shown row, each
      ended by a newline. */
  lemma TabExportLines(rows: seq<Row>, generatedOn: string)
    requires CellsAvoid(VisibleCells(rows), '\n')
    ensures var content := ExportData(rows, "excel", generatedOn).value.content;
      && Split(content, '\n') == [Join(Headers, "\t")] + Map(VisibleCells(rows), TabLine) + [""]
      && Occurrences(content, '\n') == |VisibleCells(rows)| + 1
  {
    var view := VisibleCells(rows);
    var lines := TabLines(view);
    HeadersAvoidNewline();
    JoinAvoids(Headers, "\t", '\n');
    forall k | 0 <= k < |lines|
      ensures '\n' !in lines[k]
    {
      if k > 0 {
        JoinAvoids(CellTexts(view[k - 1]), "\t", '\n');
      }
    }
    SplitTerminated(lines, '\n');
  }

  /** A spreadsheet line splits at tabs back into its eight cells when no
      cell holds a tab. */
  lemma TabLineCells(cells: Cells)
    requires forall j :: 0 <= j < 8 ==> '\t' !in CellTexts(cells)[j]
    ensures Split(TabLine(cells), '\t') == CellTexts(cells)
  {
    SplitJoin(CellTexts(cells), '\t');
  }

  lemma TitleAvoidsNewline()
    ensures '\n' !in ReportTitle
  {
  }

  lemma PreambleAvoidsNewline(generatedOn: string)
    requires '\n' !in generatedOn
    ensures forall k :: 0 <= k < 5 ==> '\n' !in ReportPreamble(generatedOn)[k]
  {
    HeadersAvoidNewline();
    JoinAvoids(Headers, " | ", '\n');
    TitleAvoidsNewline();
    RepeatAvoids('=', 150, '\n');
  }

  /** The text report: the fixed preamble of five lines, then one line per
      shown row, each ended by a newline. */
  lemma ReportExportLines(rows: seq<Row>, generatedOn: string)
    requires CellsAvoid(VisibleCells(rows), '\n') && '\n' !in generatedOn
    ensures var content := ExportData(rows, "pdf", generatedOn).value.content;
      && Split(content, '\n') == ReportPreamble(generatedOn) + Map(VisibleCells(rows), ReportLine) + [""]
      && Occurrences(content, '\n') == |VisibleCells(rows)| + 5
  {
    var view := VisibleCells(rows);
    var lines := ReportLines(view, generatedOn);
    PreambleAvoidsNewline(generatedOn);
    forall k | 0 <= k < |lines|
      ensures '\n' !in lines[k]
    {
      if k >= 5 {
        JoinAvoids(CellTexts(view[k - 5]), " | ", '\n');
      } else {
        assert lines[k] == ReportPreamble(generatedOn)[k];
      }
    }
    SplitTerminated(lines, '\n');
  }

  /** Exporting when no row is shown yields the header line alone. */
  lemma EmptyCsvExport(rows: seq<Row>, generatedOn: string)
    requires forall i :: 0 <= i < |rows| ==> rows[i].hidden
    ensures ExportData(rows, "csv", generatedOn).value.content == Join(Headers, ",") + "\n"
  {
    FilterEmpty(rows, IsShown);
    assert VisibleCells(rows) == [];
    assert CsvLines([]) == [Join(Headers, ",")];
    assert Terminated([Join(Headers, ",")], '\n') == Join(Headers, ",") + "\n" + Terminated([], '\n');
  }
}

=== FILE: page_records.dfy ===
/** The patient store of the stand-alone page script (app.js): the seeded
    records, registration with a sequential id, the age field filled from the
    date of birth, the diagnosis labels, the search predicate, and the
    statistic cards. */
module PageRecords {

  import opened Optional
  import opened Strings
  import opened Numerals
  import opened Dates
  import opened PatientIds

  /** One entry of `patientData`; `age` is `None` where `parseInt` gave NaN. */
  datatype Patient = Patient(
    id: string,
    name: string,
    dob: string,
    age: Option<int>,
    gender: string,
    address: string,
    diagnosis: string,
    dateRegistered: string)

  /** The values of the registration form's fields when it is submitted. */
  datatype Submission = Submission(
    name: string,
    dob: string,
    ageField: string,
    gender: string,
    address: string,
    diagnosis: string)

  /** The three records the page starts with. */
  function Seed(): seq<Patient> {
    [ Patient("P001", "John Doe", "1970-03-15", Some(54), "male",
              "123 Main Street, City", "chronic-kidney-disease", "2024-01-10"),
      Patient("P002", "Jane Smith", "1965-07-22", Some(59), "female",
              "456 Oak Avenue, Town", "diabetic-nephropathy", "2024-01-12"),
      Patient("P003", "Michael Johnson", "1975-11-08", Some(48), "male",
              "789 Pine Road, Village", "hypertension", "2024-01-15") ]
  }

  function IdOf(p: Patient): string {
    p.id
  }

  /** The seed records are numbered P001, P002, P003. */
  lemma SeedNumbered()
    ensures Numbered(Seed(), IdOf)
  {
    SmallPatientId(1);
    SmallPatientId(2);
    SmallPatientId(3);
  }

  /** Ids P001 to P009. */
  lemma SmallPatientId(n: nat)
    requires 1 <= n <= 9
    ensures PatientId(n) == "P00" + [DigitChar(n)]
  {
    assert NatToString(n) == [DigitChar(n)];
    assert Repeat('0', 2) == "00";
  }

  /** The submit handler: a record with the next sequential id, the form's
      values, the parsed age field and the registration date, pushed at the
      end. `registeredOn` is today's date as the clock formats it (`FormatIso`). */
  function Register(store: seq<Patient>, form: Submission, registeredOn: string): (r: seq<Patient>)
    ensures |r| == |store| + 1 && r[..|store|] == store
    ensures r[|store|].id == PatientId(|store| + 1)
    ensures r[|store|].name == form.name && r[|store|].dob == form.dob && r[|store|].gender == form.gender
    ensures r[|store|].address == form.address && r[|store|].diagnosis == form.diagnosis
    ensures r[|store|].age == ParseInt(form.ageField) && r[|store|].dateRegistered == registeredOn
  {
    store + [Patient(PatientId(|store| + 1), form.name, form.dob, ParseInt(form.ageField),
                     form.gender, form.address, form.diagnosis, registeredOn)]
  }

  /** Registration keeps the numbering: the new record gets the next position's id. */
  lemma RegisterKeepsNumbering(store: seq<Patient>, form: Submission, registeredOn: string)
    requires Numbered(store, IdOf)
    ensures Numbered(Register(store, form, registeredOn), IdOf)
  {
    var r := Register(store, form, registeredOn);
    assert r == store + [r[|store|]];
    NumberedSnoc(store, r[|store|], IdOf);
  }

  /** One submission together with the day it is made on. */
  datatype Registration = Registration(form: Submission, registeredOn: string)

  /** A run of submissions, one after another. */
  function RegisterAll(store: seq<Patient>, regs: seq<Registration>): (r: seq<Patient>)
    ensures |r| == |store| + |regs|
    decreases |regs|
  {
    if |regs| == 0 then store
    else RegisterAll(Register(store, regs[0].form, regs[0].registeredOn), regs[1..])
  }

  /** Registrations only append: the records already held stay in front. */
  lemma {:induction false} RegisterAllKeepsPrefix(store: seq<Patient>, regs: seq<Registration>)
    ensures RegisterAll(store, regs)[..|store|] == store
    decreases |regs|
  {
    if |regs| > 0 {
      var next := Register(store, regs[0].form, regs[0].registeredOn);
      RegisterAllKeepsPrefix(next, regs[1..]);
      var r := RegisterAll(store, regs);
      assert r[..|store|] == r[..|next|][..|store|];
    }
  }

  /** Whatever is registered after the seed, the seed stays in front and the
      ids stay sequential and distinct. */
  lemma {:induction false} RegisterAllKeepsNumbering(store: seq<Patient>, regs: seq<Registration>)
    requires Numbered(store, IdOf)
    ensures Numbered(RegisterAll(store, regs), IdOf)
    ensures DistinctIds(RegisterAll(store, regs), IdOf)
    decreases |regs|
  {
    if |regs| == 0 {
      NumberedIdsDistinct(store, IdOf);
    } else {
      RegisterKeepsNumbering(store, regs[0].form, regs[0].registeredOn);
      RegisterAllKeepsNumbering(Register(store, regs[0].form, regs[0].registeredOn), regs[1..]);
    }
  }

  lemma SeedThenRegistrations(regs: seq<Registration>)
    ensures |RegisterAll(Seed(), regs)| == 3 + |regs|
    ensures RegisterAll(Seed(), regs)[..3] == Seed()
    ensures DistinctIds(RegisterAll(Seed(), regs), IdOf)
  {
    SeedNumbered();
    RegisterAllKeepsNumbering(Seed(), regs);
    RegisterAllKeepsPrefix(Seed(), regs);
  }

  /** `calculateAge`: the age field after the date-of-birth input changes. An
      empty input leaves the field as it was; an unreadable date writes NaN. */
  function AgeFieldAfterDobInput(dobInput: string, today: Date, ageField: string): (r: string)
    ensures dobInput == "" ==> r == ageField
    ensures dobInput != "" && ParseIso(dobInput).Some? ==>
              ParseInt(r) == Some(AgeOn(ParseIso(dobInput).value, today))
    ensures dobInput != "" && ParseIso(dobInput).None? ==> ParseInt(r) == None
  {
    if dobInput == "" then ageField
    else
      match ParseIso(dobInput)
      case Some(dob) =>
        ParseIntOfIntToString(AgeOn(dob, today));
        IntToString(AgeOn(dob, today))
      case None => "NaN"
  }

  /** Registering right after entering a date of birth stores the age that
      date gives today. */
  lemma RegisteredAgeIsComputedAge(store: seq<Patient>, form: Submission, dob: Date, today: Date)
    requires ValidDate(dob) && 0 <= dob.year <= 9999
    requires form.dob == FormatIso(dob)
    requires form.ageField == AgeFieldAfterDobInput(form.dob, today, "")
    ensures forall registeredOn :: Register(store, form, registeredOn)[|store|].age == Some(AgeOn(dob, today))
  {
    ParseFormatIso(dob);
  }

  /** The codes `formatDiagnosis` knows a label for. */
  const KnownCodes: seq<string> := [
    "chronic-kidney-disease", "diabetic-nephropathy", "hypertension",
    "glomerulonephritis", "polycystic-kidney", "lupus-nephritis", "other"
  ]

  /** The labels, in the same order as the codes. */
  const Labels: seq<string> := [
    "Chronic Kidney Disease", "Diabetic Nephropathy", "Hypertension",
    "Glomerulonephritis", "Polycystic Kidney Disease", "Lupus Nephritis", "Other"
  ]

  /** `formatDiagnosis`: the display label of a known code; any other text unchanged. */
  function FormatDiagnosis(code: string): (text: string)
    ensures text != code <==> code in KnownCodes
    ensures text !in KnownCodes
    ensures code in KnownCodes ==> text in Labels
  {
    if code == "chronic-kidney-disease" then "Chronic Kidney Disease"
    else if code == "diabetic-nephropathy" then "Diabetic Nephropathy"
    else if code == "hypertension" then "Hypertension"
    else if code == "glomerulonephritis" then "Glomerulonephritis"
    else if code == "polycystic-kidney" then "Polycystic Kidney Disease"
    else if code == "lupus-nephritis" then "Lupus Nephritis"
    else if code == "other" then "Other"
    else code
  }

  /** The k-th known code is shown as the k-th label. */
  lemma FormatKnownCode(k: nat)
    requires k < |KnownCodes|
    ensures FormatDiagnosis(KnownCodes[k]) == Labels[k]
  {
  }

  /** A displayed label is not a code, so formatting twice changes nothing. */
  lemma FormatDiagnosisIdempotent(code: string)
    ensures FormatDiagnosis(FormatDiagnosis(code)) == FormatDiagnosis(code)
  {
  }

  /** The search half of `filterTable`: the lower-cased term in the lower-cased name or id. */
  predicate MatchesSearch(p: Patient, searchInput: string) {
    || Contains(Lower(p.name), Lower(searchInput))
    || Contains(Lower(p.id), Lower(searchInput))
  }

  /** The diagnosis half: no filter, or the filter inside the text of the
      diagnosis cell, which is the formatted label. */
  predicate MatchesDiagnosis(p: Patient, diagnosisFilter: string) {
    diagnosisFilter == "" || Contains(FormatDiagnosis(p.diagnosis), diagnosisFilter)
  }

  predicate Matches(p: Patient, searchInput: string, diagnosisFilter: string) {
    MatchesSearch(p, searchInput) && MatchesDiagnosis(p, diagnosisFilter)
  }

  /** An empty search term and no diagnosis filter show every record. */
  lemma EmptyFiltersMatch(p: Patient)
    ensures Matches(p, "", "")
  {
    ContainsEmpty(Lower(p.name));
  }

  /** The hyphenated codes: their labels have no hyphen. */
  lemma HyphenatedLabelLacksCode(k: nat)
    requires k == 0 || k == 1 || k == 4 || k == 5
    ensures !Contains(Labels[k], KnownCodes[k])
  {
    MissingCharNotContained(Labels[k], KnownCodes[k], '-');
  }

  /** The one-word codes: each has a lower-case letter its label lacks. */
  lemma OneWordLabelLacksCode(k: nat)
    requires k == 2 || k == 3 || k == 6
    ensures !Contains(Labels[k], KnownCodes[k])
  {
    var c := if k == 2 then 'h' else if k == 3 then 'g' else 'o';
    MissingCharNotContained(Labels[k], KnownCodes[k], c);
  }

  /** No label contains its own code: the labels are capitalised and spaced,
      the codes lower-case and hyphenated. */
  lemma LabelLacksOwnCode(k: nat)
    requires k < |KnownCodes|
    ensures !Contains(Labels[k], KnownCodes[k])
  {
    if k == 2 || k == 3 || k == 6 {
      OneWordLabelLacksCode(k);
    } else {
      HyphenatedLabelLacksCode(k);
    }
  }

  /** The diagnosis cell shows the label, not the code: choosing a record's
      own known code as the filter hides that record. */
  lemma OwnCodeFilterHidesRecord(p: Patient)
    requires p.diagnosis in KnownCodes
    ensures !MatchesDiagnosis(p, p.diagnosis)
  {
    var k :| 0 <= k < |KnownCodes| && KnownCodes[k] == p.diagnosis;
    FormatKnownCode(k);
    LabelLacksOwnCode(k);
  }

  /** The statistic cards that `updateStatistics` fills (the average age is left out). */
  datatype Statistics = Statistics(totalCases: nat, activePatients: nat, monthCases: nat)

  /** Total and active both show the store size; "this month" is the fixed
      26% share, rounded down. */
  function UpdateStatistics(store: seq<Patient>): (s: Statistics)
    ensures s.totalCases == |store| && s.activePatients == |store|
    ensures 100 * s.monthCases <= 26 * |store| < 100 * (s.monthCases + 1)
    ensures s.monthCases <= s.totalCases
  {
    Statistics(|store|, |store|, |store| * 26 / 100)
  }
}

=== FILE: page_table.dfy ===
/** The record table of the page script (app.js): rows rendered from the
    store, the search and diagnosis filter that hides rows, and the count of
    rows still shown. */
module PageTable {

  import opened Optional
  import opened Seqs
  import opened Strings
  import opened Numerals
  import opened PageRecords

  /** The text of the eight cells of a row, left to right. */
  datatype Cells = Cells(
    id: string,
    name: string,
    dob: string,
    age: string,
    gender: string,
    address: string,
    diagnosis: string,
    registered: string)

  /** `row.cells` in document order. */
  function CellTexts(c: Cells): (texts: seq<string>)
    ensures |texts| == 8
  {
    [c.id, c.name, c.dob, c.age, c.gender, c.address, c.diagnosis, c.registered]
  }

  /** A table row and whether `style.display` is `'none'`. */
  datatype Row = Row(cells: Cells, hidden: bool)

  /** `${patient.age}`: the number, or NaN when the age field did not parse. */
  function AgeText(age: Option<int>): string {
    match age
    case Some(a) => IntToString(a)
    case None => "NaN"
  }

  /** The cells `loadPatientTable` writes for one record; the diagnosis cell
      holds the formatted label. */
  function RowCells(p: Patient): Cells {
    Cells(p.id, p.name, p.dob, AgeText(p.age), p.gender, p.address,
          FormatDiagnosis(p.diagnosis), p.dateRegistered)
  }

  /** `loadPatientTable`: one shown row per record, in store order. */
  function LoadTable(store: seq<Patient>): (rows: seq<Row>)
    ensures |rows| == |store|
    ensures forall i :: 0 <= i < |store| ==> rows[i] == Row(RowCells(store[i]), false)
  {
    Map(store, (p: Patient) => Row(RowCells(p), false))
  }

  /** The test `filterTable` applies to one row's cells. The diagnosis cell
      carries no `data-diagnosis` attribute, so its text is what is searched. */
  predicate RowMatches(c: Cells, searchInput: string, diagnosisFilter: string) {
    var term := Lower(searchInput);
    && (Contains(Lower(c.name), term) || Contains(Lower(c.id), term))
    && (diagnosisFilter == "" || Contains(c.diagnosis, diagnosisFilter))
  }

  /** `filterTable`: every row is shown or hidden afresh from its own cells. */
  function FilterTable(rows: seq<Row>, searchInput: string, diagnosisFilter: string): (r: seq<Row>)
    ensures |r| == |rows|
    ensures forall i :: 0 <= i < |rows| ==>
      r[i] == Row(rows[i].cells, !RowMatches(rows[i].cells, searchInput, diagnosisFilter))
  {
    Map(rows, (row: Row) => Row(row.cells, !RowMatches(row.cells, searchInput, diagnosisFilter)))
  }

  predicate IsShown(row: Row) {
    !row.hidden
  }

  function CellsOf(row: Row): Cells {
    row.cells
  }

  /** The cells of the rows still shown, top to bottom. */
  function VisibleCells(rows: seq<Row>): seq<Cells> {
    Map(Filter(rows, IsShown), CellsOf)
  }

  /** A row of a freshly loaded table survives the filter exactly when its
      record matches the search and diagnosis constraints. */
  lemma RowMatchesRecord(p: Patient, searchInput: string, diagnosisFilter: string)
    ensures RowMatches(RowCells(p), searchInput, diagnosisFilter) <==> Matches(p, searchInput, diagnosisFilter)
  {
  }

  /** The rows shown after filtering a freshly loaded table are the rows of the
      matching records, in store order. */
  lemma FilteredTableShowsMatchingRecords(store: seq<Patient>, searchInput: string, diagnosisFilter: string)
    ensures VisibleCells(FilterTable(LoadTable(store), searchInput, diagnosisFilter))
         == Map(Filter(store, (p: Patient) => Matches(p, searchInput, diagnosisFilter)), RowCells)
  {
    var rows := FilterTable(LoadTable(store), searchInput, diagnosisFilter);
    var keep := (p: Patient) => Matches(p, searchInput, diagnosisFilter);
    forall k | 0 <= k < |rows|
      ensures IsShown(rows[k]) == keep(store[k]) && CellsOf(rows[k]) == RowCells(store[k])
    {
      RowMatchesRecord(store[k], searchInput, diagnosisFilter);
    }
    FilterMapCorrespond(rows, store, IsShown, keep, CellsOf, RowCells);
  }

  /** The shown records are an order-preserving selection of the store, and
      filtering that selection again changes nothing. */
  lemma FilteredRecordsSubsequence(store: seq<Patient>, searchInput: string, diagnosisFilter: string)
    ensures IsSubsequence(Filter(store, (p: Patient) => Matches(p, searchInput, diagnosisFilter)), store)
    ensures var keep := (p: Patient) => Matches(p, searchInput, diagnosisFilter);
      Filter(Filter(store, keep), keep) == Filter(store, keep)
  {
    var keep := (p: Patient) => Matches(p, searchInput, diagnosisFilter);
    FilterIsSubsequence(store, keep);
    FilterIdempotent(store, keep);
  }

  /** Filtering ignores what an earlier filter hid: the last filter alone
      decides, so applying the same filter twice is applying it once. */
  lemma LastFilterWins(rows: seq<Row>, s1: string, f1: string, s2: string, f2: string)
    ensures FilterTable(FilterTable(rows, s1, f1), s2, f2) == FilterTable(rows, s2, f2)
  {
  }

  /** An empty search box and no diagnosis filter show every row. */
  lemma EmptyFiltersShowAll(rows: seq<Row>)
    ensures forall i :: 0 <= i < |rows| ==> !FilterTable(rows, "", "")[i].hidden
  {
    forall i | 0 <= i < |rows|
      ensures RowMatches(rows[i].cells, "", "")
    {
      ContainsEmpty(Lower(rows[i].cells.name));
    }
  }

  /** `updateRecordCount`: the number of rows whose display is not `'none'`. */
  method RecordCount(rows: seq<Row>) returns (count: nat)
    ensures count == |Filter(rows, IsShown)|
    ensures count <= |rows|
  {
    count := 0;
    var i := 0;
    while i < |rows|
      invariant 0 <= i <= |rows|
      invariant count == |Filter(rows[..i], IsShown)|
    {
      FilterSnoc(rows[..i], rows[i], IsShown);
      assert rows[..i + 1] == rows[..i] + [rows[i]];
      if !rows[i].hidden {
        count := count + 1;
      }
      i := i + 1;
    }
    assert rows[..i] == rows;
  }

  /** The text of the record counter: the fixed label, then the count as a
      numeral that reads back as the count. */
  function RecordCountText(count: nat): (text: string)
    ensures |text| > |RecordCountLabel| && text[..|RecordCountLabel|] == RecordCountLabel
    ensures ParseInt(text[|RecordCountLabel|..]) == Some(count)
  {
    ParseIntOfIntToString(count);
    assert IntToString(count) == NatToString(count);
    RecordCountLabel + NatToString(count)
  }

  const RecordCountLabel: string := "Total Records: "

  /** The counter shown after filtering a loaded table reads back as the
      number of matching records. */
  lemma CounterTextShowsMatches(store: seq<Patient>, searchInput: string, diagnosisFilter: string)
    ensures var text := RecordCountText(|Filter(FilterTable(LoadTable(store), searchInput, diagnosisFilter), IsShown)|);
            ParseInt(text[|RecordCountLabel|..]) == Some(|Filter(store, (p: Patient) => Matches(p, searchInput, diagnosisFilter))|)
  {
    CountIsMatchingRecords(store, searchInput, diagnosisFilter);
  }

  /** Reloading the table, as registration does, shows every record whatever
      the search box holds. */
  lemma ReloadShowsEveryRecord(store: seq<Patient>)
    ensures |Filter(LoadTable(store), IsShown)| == |store|
  {
    FilterKeepsAll(LoadTable(store), IsShown);
  }

  /** After filtering a loaded table, the count is the number of matching records. */
  lemma CountIsMatchingRecords(store: seq<Patient>, searchInput: string, diagnosisFilter: string)
    ensures |Filter(FilterTable(LoadTable(store), searchInput, diagnosisFilter), IsShown)|
         == |Filter(store, (p: Patient) => Matches(p, searchInput, diagnosisFilter))|
    ensures |Filter(FilterTable(LoadTable(store), searchInput, diagnosisFilter), IsShown)| <= |store|
  {
    FilteredTableShowsMatchingRecords(store, searchInput, diagnosisFilter);
  }
}

=== FILE: patient_api.dfy ===
/** The Flask service (app.py): the in-memory patient list, the endpoint
    that adds a patient, the one that lists them with an optional diagnosis
    filter, and the one that computes the statistics. */
module PatientApi {

  import opened Optional
  import opened Seqs
  import opened Dates
  import opened PatientIds

  /** A stored patient dictionary. `age` is the number the client sent. */
  datatype Patient = Patient(
    id: string,
    name: string,
    dob: string,
    age: int,
    gender: string,
    address: string,
    diagnosis: string,
    dateRegistered: string)

  /** The JSON body of a new-patient request. */
  datatype Request = Request(
    name: string,
    dob: string,
    age: int,
    gender: string,
    address: string,
    diagnosis: string)

  /** `add_patient`: the new record is numbered after the records already
      held (`P{n:03d}`), stamped with the server's date text `registeredOn`,
      and appended. The reply carries the stored record. */
  function AddPatient(store: seq<Patient>, req: Request, registeredOn: string): (r: (seq<Patient>, Patient))
    ensures |r.0| == |store| + 1 && r.0[..|store|] == store
    ensures r.0[|store|] == r.1
    ensures r.1.id == PatientId(|store| + 1) && r.1.dateRegistered == registeredOn
    ensures r.1.name == req.name && r.1.dob == req.dob && r.1.age == req.age
    ensures r.1.gender == req.gender && r.1.address == req.address && r.1.diagnosis == req.diagnosis
  {
    var patient := Patient(PatientId(|store| + 1), req.name, req.dob, req.age,
                           req.gender, req.address, req.diagnosis, registeredOn);
    (store + [patient], patient)
  }

  /** `datetime.now().strftime('%Y-%m-%d')` for a four-digit year. */
  function ServerDate(today: Date): (text: string)
    requires ValidDate(today) && 1000 <= today.year <= 9999
    ensures ParseIso(text) == Some(today)
  {
    ParseFormatIso(today);
    FormatIso(today)
  }

  function IdOf(p: Patient): string {
    p.id
  }

  /** Adding a patient to a sequentially numbered list keeps it so. */
  lemma AddPatientKeepsNumbering(store: seq<Patient>, req: Request, registeredOn: string)
    requires Numbered(store, IdOf)
    ensures Numbered(AddPatient(store, req, registeredOn).0, IdOf)
  {
    var next := AddPatient(store, req, registeredOn).0;
    assert next == store + [next[|store|]];
    NumberedSnoc(store, next[|store|], IdOf);
  }

  /** A run of requests, each with its date text, added in order. */
  function AddAll(store: seq<Patient>, reqs: seq<(Request, string)>): (r: seq<Patient>)
    ensures |r| == |store| + |reqs|
    decreases |reqs|
  {
    if |reqs| == 0 then store
    else AddAll(AddPatient(store, reqs[0].0, reqs[0].1).0, reqs[1..])
  }

  /** Starting from the empty list the server begins with, however many
      patients are added, the k-th one is numbered k. */
  lemma {:induction false} AddAllNumbers(store: seq<Patient>, reqs: seq<(Request, string)>)
    requires Numbered(store, IdOf)
    ensures Numbered(AddAll(store, reqs), IdOf)
    ensures DistinctIds(AddAll(store, reqs), IdOf)
    decreases |reqs|
  {
    if |reqs| == 0 {
      NumberedIdsDistinct(store, IdOf);
    } else {
      AddPatientKeepsNumbering(store, reqs[0].0, reqs[0].1);
      AddAllNumbers(AddPatient(store, reqs[0].0, reqs[0].1).0, reqs[1..]);
    }
  }

  /** The records with exactly this diagnosis. */
  function Diagnosed(diagnosis: string): Patient -> bool {
    (p: Patient) => p.diagnosis == diagnosis
  }

  /** `get_patients`: with no `diagnosis` argument, or an empty one (falsy in
      Python), every record; otherwise the records whose diagnosis equals it,
      in stored order. */
  function GetPatients(store: seq<Patient>, diagnosis: Option<string>): (r: seq<Patient>)
    ensures diagnosis.None? || diagnosis.value == "" ==> r == store
    ensures diagnosis.Some? && diagnosis.value != "" ==>
      forall p :: p in r <==> p in store && p.diagnosis == diagnosis.value
    ensures IsSubsequence(r, store)
  {
    if diagnosis.None? || diagnosis.value == "" then
      var all := (p: Patient) => true;
      FilterKeepsAll(store, all);
      FilterIsSubsequence(store, all);
      store
    else
      FilterIsSubsequence(store, Diagnosed(diagnosis.value));
      Filter(store, Diagnosed(diagnosis.value))
  }

  /** How many records carry this diagnosis. */
  function Count(store: seq<Patient>, diagnosis: string): nat {
    |Filter(store, Diagnosed(diagnosis))|
  }

  /** The names of the records, as a set, built record by record. */
  function NameSet(store: seq<Patient>): set<string>
    decreases |store|
  {
    if |store| == 0 then {} else NameSet(store[..|store| - 1]) + {store[|store| - 1].name}
  }

  /** The set holds exactly the names that occur in the records. */
  lemma {:induction false} NameSetMembers(store: seq<Patient>)
    ensures forall n :: n in NameSet(store) <==> exists i :: 0 <= i < |store| && store[i].name == n
    decreases |store|
  {
    if |store| > 0 {
      var last := |store| - 1;
      NameSetMembers(store[..last]);
      assert forall i :: 0 <= i < last ==> store[..last][i] == store[i];
    }
  }

  /** No two records share a name. */
  predicate DistinctNames(store: seq<Patient>) {
    forall i, j :: 0 <= i < j < |store| ==> store[i].name != store[j].name
  }

  lemma NameSetSnoc(store: seq<Patient>)
    requires |store| > 0
    ensures NameSet(store) == NameSet(store[..|store| - 1]) + {store[|store| - 1].name}
  {
  }

  lemma NewNameGrows(store: seq<Patient>)
    requires |store| > 0
    requires store[|store| - 1].name !in NameSet(store[..|store| - 1])
    ensures |NameSet(store)| == |NameSet(store[..|store| - 1])| + 1
  {
    NameSetSnoc(store);
  }

  /** With the last name new, the names are distinct exactly when the
      earlier ones are. */
  lemma DistinctNamesSnoc(store: seq<Patient>)
    requires |store| > 0
    requires store[|store| - 1].name !in NameSet(store[..|store| - 1])
    ensures DistinctNames(store) <==> DistinctNames(store[..|store| - 1])
  {
    var last := |store| - 1;
    var front := store[..last];
    assert forall i :: 0 <= i < last ==> front[i] == store[i];
    NameSetMembers(front);
    if DistinctNames(front) {
      forall i, j | 0 <= i < j < |store|
        ensures store[i].name != store[j].name
      {
        if j == last {
          assert front[i].name == store[i].name;
        }
      }
    }
  }

  /** With the last name repeated, the names are not distinct and the set
      does not grow. */
  lemma RepeatedNameSnoc(store: seq<Patient>)
    requires |store| > 0
    requires store[|store| - 1].name in NameSet(store[..|store| - 1])
    ensures !DistinctNames(store)
    ensures NameSet(store) == NameSet(store[..|store| - 1])
  {
    var last := |store| - 1;
    var front := store[..last];
    NameSetSnoc(store);
    NameSetMembers(front);
    var i :| 0 <= i < |front| && front[i].name == store[last].name;
    assert store[i].name == store[last].name;
  }

  /** `active_patients` counts distinct names: never more than the records,
      and equal to them exactly when no name repeats. */
  lemma {:induction false} NameCountBound(store: seq<Patient>)
    ensures |NameSet(store)| <= |store|
    ensures |NameSet(store)| == |store| <==> DistinctNames(store)
    decreases |store|
  {
    if |store| > 0 {
      var last := |store| - 1;
      var front := store[..last];
      NameCountBound(front);
      if store[last].name in NameSet(front) {
        RepeatedNameSnoc(store);
        assert |NameSet(store)| == |NameSet(front)|;
      } else {
        NewNameGrows(store);
        DistinctNamesSnoc(store);
      }
    }
  }

  /** The sum of the ages. */
  function SumAges(store: seq<Patient>): int
    decreases |store|
  {
    if |store| == 0 then 0 else SumAges(store[..|store| - 1]) + store[|store| - 1].age
  }

  /** Adding a patient adds its age to the sum, whatever the rest holds. */
  lemma SumAgesAddPatient(store: seq<Patient>, req: Request, registeredOn: string)
    ensures SumAges(AddPatient(store, req, registeredOn).0) == SumAges(store) + req.age
  {
    var next := AddPatient(store, req, registeredOn).0;
    assert next[..|next| - 1] == store;
  }

  /** An exact quotient; Python's division yields its nearest float. */
  datatype Ratio = Ratio(numerator: int, denominator: nat)

  /** `average_age`: the sum of the ages over their number, or 0 with no records. */
  function AverageAge(store: seq<Patient>): (avg: Ratio)
    ensures avg.denominator >= 1
    ensures |store| == 0 ==> avg.numerator == 0
    ensures |store| > 0 ==> avg.denominator == |store| && avg.numerator == SumAges(store)
  {
    if |store| == 0 then Ratio(0, 1) else Ratio(SumAges(store), |store|)
  }

  /** The average lies between the least and the greatest age. */
  lemma {:induction false} SumAgesBounds(store: seq<Patient>, lo: int, hi: int)
    requires forall k :: 0 <= k < |store| ==> lo <= store[k].age <= hi
    ensures lo * |store| <= SumAges(store) <= hi * |store|
    decreases |store|
  {
    if |store| > 0 {
      var last := |store| - 1;
      assert forall k :: 0 <= k < last ==> store[..last][k] == store[k];
      SumAgesBounds(store[..last], lo, hi);
    }
  }

  lemma AverageAgeBounds(store: seq<Patient>, lo: int, hi: int)
    requires |store| > 0
    requires forall k :: 0 <= k < |store| ==> lo <= store[k].age <= hi
    ensures var avg := AverageAge(store);
      lo * avg.denominator <= avg.numerator <= hi * avg.denominator
  {
    SumAgesBounds(store, lo, hi);
  }

  /** The `diagnoses` dictionary: keys in the order they were first inserted. */
  type Histogram = seq<(string, nat)>

  function Lookup(h: Histogram, key: string): Option<nat>
    decreases |h|
  {
    if |h| == 0 then None
    else if h[0].0 == key then Some(h[0].1)
    else Lookup(h[1..], key)
  }

  predicate DistinctKeys(h: Histogram) {
    forall i, j :: 0 <= i < j < |h| ==> h[i].0 != h[j].0
  }

  /** `d[key] = d.get(key, 0) + 1`: an existing entry goes up by one in
      place; a new key is appended with count 1. */
  function Bump(h: Histogram, key: string): (r: Histogram)
    ensures |r| == |h| || (|r| == |h| + 1 && r[|h|] == (key, 1))
    ensures forall i :: 0 <= i < |h| ==> r[i].0 == h[i].0
    decreases |h|
  {
    if |h| == 0 then [(key, 1)]
    else if h[0].0 == key then [(key, h[0].1 + 1)] + h[1..]
    else [h[0]] + Bump(h[1..], key)
  }

  /** Bumping a key adds one to its count (from nothing to 1) and leaves
      every other key's count alone. */
  lemma {:induction false} BumpLookup(h: Histogram, key: string, other: string)
    ensures Lookup(Bump(h, key), other) ==
      if other != key then Lookup(h, other)
      else if Lookup(h, key).None? then Some(1)
      else Some(Lookup(h, key).value + 1)
    decreases |h|
  {
    if |h| > 0 && h[0].0 != key {
      BumpLookup(h[1..], key, other);
      assert Bump(h, key)[1..] == Bump(h[1..], key);
    }
  }

  /** A key is absent from a histogram exactly when no entry has it. */
  lemma {:induction false} LookupNone(h: Histogram, key: string)
    ensures Lookup(h, key).None? <==> forall i :: 0 <= i < |h| ==> h[i].0 != key
    decreases |h|
  {
    if |h| > 0 {
      LookupNone(h[1..], key);
      assert forall i :: 1 <= i < |h| ==> h[1..][i - 1] == h[i];
    }
  }

  /** A new key is appended only when absent, so keys never repeat. */
  lemma BumpKeepsKeysDistinct(h: Histogram, key: string)
    requires DistinctKeys(h)
    ensures DistinctKeys(Bump(h, key))
  {
    var r := Bump(h, key);
    if |r| == |h| + 1 {
      LookupNone(h, key);
      BumpLookup(h, key, key);
      assert Lookup(h, key).None? by {
        if Lookup(h, key).Some? {
          var i :| 0 <= i < |h| && h[i].0 == key;
          BumpAddsOnlyNew(h, key, i);
        }
      }
    }
  }

  /** A key already present is bumped in place: the histogram keeps its length. */
  lemma {:induction false} BumpAddsOnlyNew(h: Histogram, key: string, i: nat)
    requires i < |h| && h[i].0 == key
    ensures |Bump(h, key)| == |h|
    decreases |h|
  {
    if h[0].0 != key {
      assert h[1..][i - 1] == h[i];
      BumpAddsOnlyNew(h[1..], key, i - 1);
    }
  }

  /** The total of all counts. */
  function Total(h: Histogram): nat
    decreases |h|
  {
    if |h| == 0 then 0 else h[0].1 + Total(h[1..])
  }

  lemma {:induction false} BumpTotal(h: Histogram, key: string)
    ensures Total(Bump(h, key)) == Total(h) + 1
    decreases |h|
  {
    if |h| > 0 {
      if h[0].0 == key {
        assert Bump(h, key)[1..] == h[1..];
      } else {
        BumpTotal(h[1..], key);
        assert Bump(h, key)[1..] == Bump(h[1..], key);
      }
    }
  }

  /** The loop over the stored records, one bump per record. */
  function Tally(store: seq<Patient>): Histogram
    decreases |store|
  {
    if |store| == 0 then [] else Bump(Tally(store[..|store| - 1]), store[|store| - 1].diagnosis)
  }

  /** One more record raises its own diagnosis's count by one and leaves
      the other counts alone. */
  lemma CountSnoc(front: seq<Patient>, x: Patient, key: string)
    ensures Count(front + [x], key) == Count(front, key) + (if x.diagnosis == key then 1 else 0)
  {
    FilterSnoc(front, x, Diagnosed(key));
  }

  /** The step from a prefix to one more record keeps the lookup right. */
  lemma TallyStep(store: seq<Patient>, key: string)
    requires |store| > 0
    requires var front := store[..|store| - 1];
      Lookup(Tally(front), key) == if Count(front, key) == 0 then None else Some(Count(front, key))
    ensures Lookup(Tally(store), key) == if Count(store, key) == 0 then None else Some(Count(store, key))
  {
    var last := |store| - 1;
    var front := store[..last];
    var x := store[last];
    assert store == front + [x];
    BumpLookup(Tally(front), x.diagnosis, key);
    CountSnoc(front, x, key);
  }

  /** The histogram the statistics report is right: each diagnosis that
      occurs appears once with the number of its records, others not at all,
      and the counts add up to the number of records. */
  lemma {:induction false} TallyCorrect(store: seq<Patient>)
    ensures DistinctKeys(Tally(store))
    ensures Total(Tally(store)) == |store|
    ensures forall key :: Lookup(Tally(store), key) == if Count(store, key) == 0 then None else Some(Count(store, key))
    decreases |store|
  {
    if |store| > 0 {
      var last := |store| - 1;
      var front := store[..last];
      TallyCorrect(front);
      BumpKeepsKeysDistinct(Tally(front), store[last].diagnosis);
      BumpTotal(Tally(front), store[last].diagnosis);
      forall key
        ensures Lookup(Tally(store), key) == if Count(store, key) == 0 then None else Some(Count(store, key))
      {
        TallyStep(store, key);
      }
    }
  }

  /** The count reported for a diagnosis is the number of records the list
      endpoint returns for it. */
  lemma HistogramAgreesWithListing(store: seq<Patient>, diagnosis: string)
    requires diagnosis != ""
    requires Lookup(Tally(store), diagnosis).Some?
    ensures Lookup(Tally(store), diagnosis).value == |GetPatients(store, Some(diagnosis))|
  {
    TallyCorrect(store);
  }

  /** The statistics reply; `average_age` is an exact ratio here. */
  datatype Statistics = Statistics(
    totalCases: nat,
    activePatients: nat,
    averageAge: Ratio,
    diagnoses: Histogram)

  /** `get_statistics`, with the histogram loop as written: total, distinct
      names, average age and the per-diagnosis counts. */
  method GetStatistics(store: seq<Patient>) returns (stats: Statistics)
    ensures stats.totalCases == |store|
    ensures stats.activePatients == |NameSet(store)|
    ensures stats.activePatients <= stats.totalCases
    ensures stats.activePatients == stats.totalCases <==> DistinctNames(store)
    ensures stats.averageAge == AverageAge(store)
    ensures DistinctKeys(stats.diagnoses) && Total(stats.diagnoses) == |store|
    ensures forall key :: Lookup(stats.diagnoses, key) == if Count(store, key) == 0 then None else Some(Count(store, key))
  {
    NameCountBound(store);
    var diagnoses: Histogram := [];
    var i := 0;
    while i < |store|
      invariant 0 <= i <= |store|
      invariant diagnoses == Tally(store[..i])
    {
      assert store[..i + 1][..i] == store[..i] && store[..i + 1][i] == store[i];
      diagnoses := Bump(diagnoses, store[i].diagnosis);
      i := i + 1;
    }
    assert store[..|store|] == store;
    TallyCorrect(store);
    stats := Statistics(|store|, |NameSet(store)|, AverageAge(store), diagnoses);
  }
}

=== FILE: patient_ids.dfy ===
/** The sequential patient identifier shared by the page script (app.js:133)
    and the API server (app.py:46): `P` followed by a serial number
    zero-padded to at least three digits. */
module PatientIds {

  import opened Numerals

  /** `'P' + String(n).padStart(3, '0')`, equivalently `f"P{n:03d}"`. */
  function PatientId(n: nat): (id: string)
    ensures |id| >= 4 && id[0] == 'P'
    ensures AllDigits(id[1..]) && DigitsValue(id[1..]) == n
    ensures n < 1000 ==> |id| == 4
    ensures n >= 100 ==> id[1] != '0'
  {
    var digits := PadStart(NatToString(n), 3, '0');
    ZeroPaddedValue(n, 3);
    AtMostThreeDigits(n);
    AtLeastThreeDigits(n);
    assert ("P" + digits)[1..] == digits;
    "P" + digits
  }

  lemma AtMostThreeDigits(n: nat)
    ensures n < 1000 ==> |NatToString(n)| <= 3
  {
    if n < 1000 {
      assert Pow10(3) == 1000;
      NatToStringLength(n, 3);
    }
  }

  lemma AtLeastThreeDigits(n: nat)
    ensures n >= 100 ==> |NatToString(n)| >= 3
  {
    if n >= 100 {
      assert Pow10(2) == 100;
      NatToStringLengthAtLeast(n, 3);
    }
  }

  /** Two serial numbers give the same identifier only when they are equal. */
  lemma PatientIdInjective(m: nat, n: nat)
    ensures PatientId(m) == PatientId(n) <==> m == n
  {
    if PatientId(m) == PatientId(n) {
      assert PatientId(m)[1..] == PatientId(n)[1..];
    }
  }

  /** Entry k (from 0) carries `idOf(k + 1)`, for any numbering scheme;
      `id` reads a store entry's id. */
  predicate NumberedFrom<T>(store: seq<T>, id: T -> string, idOf: nat -> string) {
    forall i :: 0 <= i < |store| ==> id(store[i]) == idOf(i + 1)
  }

  /** Entry k (from 0) of a store carries the patient id numbered k+1. */
  predicate Numbered<T>(store: seq<T>, id: T -> string) {
    NumberedFrom(store, id, PatientId)
  }

  lemma NumberedFromSnoc<T>(store: seq<T>, x: T, id: T -> string, idOf: nat -> string)
    requires NumberedFrom(store, id, idOf) && id(x) == idOf(|store| + 1)
    ensures NumberedFrom(store + [x], id, idOf)
  {
    var next := store + [x];
    forall i | 0 <= i < |next|
      ensures id(next[i]) == idOf(i + 1)
    {
      if i < |store| {
        assert next[i] == store[i];
      }
    }
  }

  /** Appending an entry that carries the next number keeps a store numbered. */
  lemma NumberedSnoc<T>(store: seq<T>, x: T, id: T -> string)
    requires Numbered(store, id) && id(x) == PatientId(|store| + 1)
    ensures Numbered(store + [x], id)
  {
    NumberedFromSnoc(store, x, id, PatientId);
  }

  /** No two entries of a store share an id. */
  predicate DistinctIds<T>(store: seq<T>, id: T -> string) {
    forall i, j :: 0 <= i < j < |store| ==> id(store[i]) != id(store[j])
  }

  /** Sequential numbering gives every entry its own id. */
  lemma NumberedIdsDistinct<T>(store: seq<T>, id: T -> string)
    requires Numbered(store, id)
    ensures DistinctIds(store, id)
  {
    forall i, j | 0 <= i < j < |store|
      ensures id(store[i]) != id(store[j])
    {
      PatientIdInjective(i + 1, j + 1);
    }
  }
}

=== FILE: patient_table.dfy ===
/** The patient table component (patient-table.tsx): its sample records, the
    search and diagnosis filter, the CSV, spreadsheet and text-report bodies
    built from the filtered records, and the export buttons' guard. */
module PatientTable {

  import opened Optional
  import opened Seqs
  import opened Strings
  import opened Numerals

  /** One entry of `patientData`; this component's schema. */
  datatype Patient = Patient(
    id: string,
    name: string,
    dateOfBirth: string,
    age: int,
    gender: string,
    address: string,
    diagnosis: string)

  /** The five records the component shows. */
  function SampleData(): seq<Patient> {
    [ Patient("001", "Ahmed Hassan", "1965-03-15", 59, "Male", "123 Main St, City", "CKD"),
      Patient("002", "Fatima Ali", "1970-07-22", 54, "Female", "456 Oak Ave, City", "Diabetes"),
      Patient("003", "Mohammed Ibrahim", "1955-11-08", 69, "Male", "789 Pine Rd, City", "Hypertension"),
      Patient("004", "Noor Abdulla", "1975-01-30", 49, "Female", "321 Elm St, City", "ARF"),
      Patient("005", "Karim Khan", "1960-05-12", 64, "Male", "654 Maple Dr, City", "CKD") ]
  }

  /** The diagnosis select's handler, `e.target.value || null`: the empty
      choice ("All Diagnoses") clears the filter. */
  function SelectDiagnosis(value: string): (filter: Option<string>)
    ensures filter.None? <==> value == ""
    ensures filter.Some? ==> filter.value == value
  {
    if value == "" then None else Some(value)
  }

  /** The name, lower-cased, contains the lower-cased term, or the id contains
      the term as typed. */
  predicate MatchesSearch(p: Patient, searchTerm: string) {
    Contains(Lower(p.name), Lower(searchTerm)) || Contains(p.id, searchTerm)
  }

  /** `!filterDiagnosis || patient.diagnosis === filterDiagnosis`: no filter
      (null or the falsy empty string) or exact equality. */
  predicate MatchesDiagnosis(p: Patient, filterDiagnosis: Option<string>) {
    filterDiagnosis.None? || filterDiagnosis.value == "" || p.diagnosis == filterDiagnosis.value
  }

  predicate Matches(p: Patient, searchTerm: string, filterDiagnosis: Option<string>) {
    MatchesSearch(p, searchTerm) && MatchesDiagnosis(p, filterDiagnosis)
  }

  /** `filteredData`: exactly the matching records, in their original order. */
  function FilteredData(data: seq<Patient>, searchTerm: string, filterDiagnosis: Option<string>)
    : (r: seq<Patient>)
    ensures |r| <= |data|
    ensures forall k :: 0 <= k < |r| ==> r[k] in data && Matches(r[k], searchTerm, filterDiagnosis)
    ensures forall k :: 0 <= k < |data| && Matches(data[k], searchTerm, filterDiagnosis) ==> data[k] in r
  {
    Filter(data, (p: Patient) => Matches(p, searchTerm, filterDiagnosis))
  }

  /** The filtered records are an order-preserving subsequence of the data,
      and filtering them again returns them unchanged. */
  lemma FilteredDataStable(data: seq<Patient>, searchTerm: string, filterDiagnosis: Option<string>)
    ensures IsSubsequence(FilteredData(data, searchTerm, filterDiagnosis), data)
    ensures FilteredData(FilteredData(data, searchTerm, filterDiagnosis), searchTerm, filterDiagnosis)
         == FilteredData(data, searchTerm, filterDiagnosis)
  {
    var keep := (p: Patient) => Matches(p, searchTerm, filterDiagnosis);
    FilterIsSubsequence(data, keep);
    FilterIdempotent(data, keep);
  }

  /** With an empty search box, a chosen diagnosis keeps exactly the records
      with that diagnosis; clearing the select keeps every record. */
  lemma DiagnosisFilterIsExact(data: seq<Patient>, choice: string)
    ensures choice != "" ==>
      forall p :: p in FilteredData(data, "", SelectDiagnosis(choice)) <==> p in data && p.diagnosis == choice
    ensures choice == "" ==> FilteredData(data, "", SelectDiagnosis(choice)) == data
  {
    var keep := (p: Patient) => Matches(p, "", SelectDiagnosis(choice));
    forall k | 0 <= k < |data|
      ensures MatchesSearch(data[k], "")
    {
      ContainsEmpty(Lower(data[k].name));
    }
    if choice == "" {
      FilterKeepsAll(data, keep);
    } else {
      forall p | p in data
        ensures MatchesSearch(p, "")
      {
        ContainsEmpty(Lower(p.name));
      }
    }
  }

  /** The export buttons are enabled (`filteredData.length !== 0`). */
  function ExportEnabled(filtered: seq<Patient>): bool {
    |filtered| != 0
  }

  /** The buttons are enabled exactly when some record matches. */
  lemma ExportEnabledIffSomeMatch(data: seq<Patient>, searchTerm: string, filterDiagnosis: Option<string>)
    ensures ExportEnabled(FilteredData(data, searchTerm, filterDiagnosis))
        <==> exists k :: 0 <= k < |data| && Matches(data[k], searchTerm, filterDiagnosis)
  {
    FilterEmpty(data, (p: Patient) => Matches(p, searchTerm, filterDiagnosis));
  }

  /** "Showing X of Y records": the two counts, the first never above the second. */
  function Summary(data: seq<Patient>, searchTerm: string, filterDiagnosis: Option<string>)
    : (counts: (nat, nat))
    ensures counts.0 == |FilteredData(data, searchTerm, filterDiagnosis)|
    ensures counts.0 <= counts.1 == |data|
  {
    (|FilteredData(data, searchTerm, filterDiagnosis)|, |data|)
  }

  /** The component's own data with nothing typed and no diagnosis chosen
      shows "Showing 5 of 5 records". */
  lemma SampleSummary()
    ensures Summary(SampleData(), "", None) == (5, 5)
  {
    DiagnosisFilterIsExact(SampleData(), "");
  }

  const Headers: seq<string> := ["ID", "Name", "Date of Birth", "Age", "Gender", "Address", "Diagnosis"]

  /** The seven exported values of a record, in column order. */
  function Fields(p: Patient): (f: seq<string>)
    ensures |f| == 7
  {
    [p.id, p.name, p.dateOfBirth, IntToString(p.age), p.gender, p.address, p.diagnosis]
  }

  /** A CSV line: name and address wrapped in double quotes, no escaping. */
  function CsvRow(p: Patient): string {
    Join([p.id, Quote(p.name), p.dateOfBirth, IntToString(p.age), p.gender, Quote(p.address), p.diagnosis], ",")
  }

  /** A CSV line splits at its commas back into the record's values, with only
      the name and the address wrapped in quotes and nothing escaped, provided
      no value holds a comma itself. */
  lemma CsvRowFields(p: Patient)
    requires forall j :: 0 <= j < 7 ==> ',' !in Fields(p)[j]
    ensures Split(CsvRow(p), ',') == [p.id, Quote(p.name), p.dateOfBirth, IntToString(p.age), p.gender, Quote(p.address), p.diagnosis]
  {
    var parts := [p.id, Quote(p.name), p.dateOfBirth, IntToString(p.age), p.gender, Quote(p.address), p.diagnosis];
    var f := Fields(p);
    assert ',' !in f[0] && ',' !in f[1] && ',' !in f[2] && ',' !in f[3];
    assert ',' !in f[4] && ',' !in f[5] && ',' !in f[6];
    assert ',' !in Quote(p.name) && ',' !in Quote(p.address);
    SplitJoin(parts, ',');
  }

  /** A CSV reader takes a line apart into the record's values, with only the
      name and the address still wrapped in quotes. Commas inside the name
      and the address are protected by the quotes; only a quote inside a
      value, which the component does not escape, would break the reading. */
  lemma CsvRowReadsBack(p: Patient)
    requires '"' !in p.name && '"' !in p.address
    requires forall j :: 0 <= j < 7 && j != 1 && j != 5 ==> ',' !in Fields(p)[j] && '"' !in Fields(p)[j]
    ensures SplitCsv(CsvRow(p), false) == [p.id, Quote(p.name), p.dateOfBirth, IntToString(p.age), p.gender, Quote(p.address), p.diagnosis]
  {
    var parts := [p.id, Quote(p.name), p.dateOfBirth, IntToString(p.age), p.gender, Quote(p.address), p.diagnosis];
    var f := Fields(p);
    assert CsvField(f[0]) && CsvField(f[2]) && CsvField(f[3]) && CsvField(f[4]) && CsvField(f[6]);
    assert Quote(p.name)[1..|Quote(p.name)| - 1] == p.name;
    assert Quote(p.address)[1..|Quote(p.address)| - 1] == p.address;
    assert CsvField(Quote(p.name)) && CsvField(Quote(p.address));
    SplitCsvJoin(parts);
  }

  /** `exportToCSV`: the header line and one line per record, newline-joined. */
  function ExportToCsv(filtered: seq<Patient>): string {
    Join([Join(Headers, ",")] + Map(filtered, CsvRow), "\n")
  }

  /** No exported value of any record holds the character `c`. */
  predicate FieldsAvoid(records: seq<Patient>, c: char) {
    forall k, j :: 0 <= k < |records| && 0 <= j < 7 ==> c !in Fields(records[k])[j]
  }

  lemma HeadersAvoid(c: char)
    requires c == '\n' || c == '\t'
    ensures forall j :: 0 <= j < |Headers| ==> c !in Headers[j]
  {
  }

  lemma CsvRowAvoidsNewline(p: Patient)
    requires forall j :: 0 <= j < 7 ==> '\n' !in Fields(p)[j]
    ensures '\n' !in CsvRow(p)
  {
    var parts := [p.id, Quote(p.name), p.dateOfBirth, IntToString(p.age), p.gender, Quote(p.address), p.diagnosis];
    var f := Fields(p);
    assert '\n' !in f[0] && '\n' !in f[1] && '\n' !in f[2] && '\n' !in f[3];
    assert '\n' !in f[4] && '\n' !in f[5] && '\n' !in f[6];
    assert '\n' !in Quote(p.name) && '\n' !in Quote(p.address);
    JoinAvoids(parts, ",", '\n');
  }

  lemma CsvRowNonEmpty(p: Patient)
    ensures |CsvRow(p)| > 0
  {
    var parts := [p.id, Quote(p.name), p.dateOfBirth, IntToString(p.age), p.gender, Quote(p.address), p.diagnosis];
    assert CsvRow(p) == parts[0] + "," + Join(parts[1..], ",");
  }

  lemma HeaderLineNonEmpty()
    ensures |Join(Headers, ",")| > 0
  {
    assert Join(Headers, ",") == Headers[0] + "," + Join(Headers[1..], ",");
  }

  /** The CSV lines: the header line, then one line per record, none of
      them empty or holding a newline. */
  lemma CsvLinesClean(filtered: seq<Patient>)
    requires FieldsAvoid(filtered, '\n')
    ensures var lines := [Join(Headers, ",")] + Map(filtered, CsvRow);
      && (forall k :: 0 <= k < |lines| ==> '\n' !in lines[k])
      && |lines[|lines| - 1]| > 0
  {
    var lines := [Join(Headers, ",")] + Map(filtered, CsvRow);
    HeadersAvoid('\n');
    JoinAvoids(Headers, ",", '\n');
    forall k | 0 <= k < |lines|
      ensures '\n' !in lines[k]
    {
      if k > 0 {
        CsvRowAvoidsNewline(filtered[k - 1]);
      }
    }
    if |filtered| == 0 {
      HeaderLineNonEmpty();
    } else {
      CsvRowNonEmpty(filtered[|filtered| - 1]);
    }
  }

  /** The CSV body has exactly one line per record after the header, in
      order, and no newline at its end. */
  lemma CsvLines(filtered: seq<Patient>)
    requires FieldsAvoid(filtered, '\n')
    ensures Split(ExportToCsv(filtered), '\n') == [Join(Headers, ",")] + Map(filtered, CsvRow)
    ensures Occurrences(ExportToCsv(filtered), '\n') == |filtered|
    ensures |ExportToCsv(filtered)| > 0 && ExportToCsv(filtered)[|ExportToCsv(filtered)| - 1] != '\n'
  {
    var lines := [Join(Headers, ",")] + Map(filtered, CsvRow);
    CsvLinesClean(filtered);
    SplitJoin(lines, '\n');
    var last := lines[|lines| - 1];
    JoinEndsWithLast(lines, "\n");
    var content := ExportToCsv(filtered);
    assert content[|content| - 1] == last[|last| - 1];
  }

  /** A spreadsheet cell: the text with its quotes doubled, wrapped in quotes. */
  function SheetCell(text: string): string {
    Quote(DoubleQuotes(text))
  }

  function SheetLine(cells: seq<string>): string {
    Join(Map(cells, SheetCell), "\t")
  }

  /** The header row followed by the records' values. */
  function SheetRows(filtered: seq<Patient>): seq<seq<string>> {
    [Headers] + Map(filtered, Fields)
  }

  /** `exportToExcel`: every cell quoted with quotes doubled, tab-joined,
      rows newline-joined. */
  function ExportToExcel(filtered: seq<Patient>): string {
    Join(Map(SheetRows(filtered), SheetLine), "\n")
  }

  lemma SheetLineAvoids(cells: seq<string>, c: char)
    requires c != '"' && c != '\t'
    requires forall j :: 0 <= j < |cells| ==> c !in cells[j]
    ensures c !in SheetLine(cells)
    ensures forall j :: 0 <= j < |cells| ==> c !in SheetCell(cells[j])
  {
    forall j | 0 <= j < |cells|
      ensures c !in SheetCell(cells[j])
    {
      DoubleQuotesKeepsChar(cells[j], c);
    }
    JoinAvoids(Map(cells, SheetCell), "\t", c);
  }

  lemma SheetRowsAvoid(filtered: seq<Patient>, c: char)
    requires c == '\n' || c == '\t'
    requires FieldsAvoid(filtered, c)
    ensures forall i, j :: 0 <= i < |SheetRows(filtered)| && 0 <= j < |SheetRows(filtered)[i]| ==>
      c !in SheetRows(filtered)[i][j]
  {
    HeadersAvoid(c);
    var rows := SheetRows(filtered);
    forall i, j | 0 <= i < |rows| && 0 <= j < |rows[i]|
      ensures c !in rows[i][j]
    {
      if i > 0 {
        assert rows[i] == Fields(filtered[i - 1]);
      }
    }
  }

  /** The spreadsheet's lines are the header and the records, in order:
      one line per record after the header. */
  lemma ExcelLines(filtered: seq<Patient>)
    requires FieldsAvoid(filtered, '\n')
    ensures Split(ExportToExcel(filtered), '\n') == Map(SheetRows(filtered), SheetLine)
    ensures Occurrences(ExportToExcel(filtered), '\n') == |filtered|
  {
    var rows := SheetRows(filtered);
    var sheetLines := Map(rows, SheetLine);
    SheetRowsAvoid(filtered, '\n');
    forall i | 0 <= i < |sheetLines|
      ensures '\n' !in sheetLines[i]
    {
      SheetLineAvoids(rows[i], '\n');
    }
    SplitJoin(sheetLines, '\n');
  }

  /** Reading a spreadsheet line back: it splits at tabs into one cell per
      column, and every cell decodes to the exact value, quotes included. */
  lemma ExcelCellsDecode(filtered: seq<Patient>)
    requires FieldsAvoid(filtered, '\t')
    ensures forall i :: 0 <= i < |SheetRows(filtered)| ==>
      var cells := SheetRows(filtered)[i];
      && |Split(SheetLine(cells), '\t')| == |cells|
      && forall j :: 0 <= j < |cells| ==> DecodeQuotedCell(Split(SheetLine(cells), '\t')[j]) == Some(cells[j])
  {
    var rows := SheetRows(filtered);
    SheetRowsAvoid(filtered, '\t');
    forall i | 0 <= i < |rows|
      ensures var cells := rows[i];
        && |Split(SheetLine(cells), '\t')| == |cells|
        && forall j :: 0 <= j < |cells| ==> DecodeQuotedCell(Split(SheetLine(cells), '\t')[j]) == Some(cells[j])
    {
      if i > 0 {
        assert rows[i] == Fields(filtered[i - 1]);
      }
      RowRoundTrip(rows[i]);
    }
  }

  lemma RowRoundTrip(cells: seq<string>)
    requires |cells| >= 1
    requires forall j :: 0 <= j < |cells| ==> '\t' !in cells[j]
    ensures var pieces := Split(SheetLine(cells), '\t');
      && |pieces| == |cells|
      && forall j :: 0 <= j < |pieces| ==> DecodeQuotedCell(pieces[j]) == Some(cells[j])
  {
    var quoted := Map(cells, SheetCell);
    forall j | 0 <= j < |cells|
      ensures '\t' !in quoted[j]
    {
      DoubleQuotesKeepsChar(cells[j], '\t');
    }
    SplitJoin(quoted, '\t');
    forall j | 0 <= j < |cells|
      ensures DecodeQuotedCell(quoted[j]) == Some(cells[j])
    {
      DecodeQuotedCellRoundTrip(cells[j]);
    }
  }

  const ReportTitle: string := "PATIENT HAEMODIALYSIS REPORT"

  /** The column line of the report, with its extra tabs. */
  const ReportColumns: string := "ID\tName\t\t\tDOB\t\tAge\tGender\tDiagnosis"

  /** Title, time stamp, a rule of 80 `=`, a blank line, the columns and a rule of 80 `-`. */
  function ReportPreamble(generatedOn: string): seq<string> {
    [ReportTitle, "Generated: " + generatedOn, Repeat('=', 80), "", ReportColumns, Repeat('-', 80)]
  }

  /** A record's report line: six values, tab-separated (the address is not printed). */
  function ReportValues(p: Patient): (v: seq<string>)
    ensures |v| == 6
  {
    [p.id, p.name, p.dateOfBirth, IntToString(p.age), p.gender, p.diagnosis]
  }

  function ReportRow(p: Patient): string {
    Join(ReportValues(p), "\t")
  }

  /** `exportToPDF`: the preamble and one line per record, every line ended
      by a newline. `generatedOn` is the clock's `toLocaleString()` text. */
  function ExportToPdf(filtered: seq<Patient>, generatedOn: string): string {
    Terminated(ReportPreamble(generatedOn) + Map(filtered, ReportRow), '\n')
  }

  lemma PreambleAvoidsNewline(generatedOn: string)
    requires '\n' !in generatedOn
    ensures forall k :: 0 <= k < 6 ==> '\n' !in ReportPreamble(generatedOn)[k]
  {
    TitleAvoidsNewline();
    ColumnsAvoidNewline();
    RepeatAvoids('=', 80, '\n');
    RepeatAvoids('-', 80, '\n');
  }

  lemma TitleAvoidsNewline()
    ensures '\n' !in ReportTitle
  {
  }

  lemma ColumnsAvoidNewline()
    ensures '\n' !in ReportColumns
  {
  }

  lemma ReportValuesAvoid(p: Patient, c: char)
    requires forall j :: 0 <= j < 7 ==> c !in Fields(p)[j]
    ensures forall j :: 0 <= j < 6 ==> c !in ReportValues(p)[j]
  {
    var f := Fields(p);
    assert c !in f[0] && c !in f[1] && c !in f[2] && c !in f[3] && c !in f[4] && c !in f[6];
  }

  /** The report has its six fixed lines, then exactly one line per record,
      in order, each ended by a newline. */
  lemma ReportLines(filtered: seq<Patient>, generatedOn: string)
    requires FieldsAvoid(filtered, '\n') && '\n' !in generatedOn
    ensures Split(ExportToPdf(filtered, generatedOn), '\n')
         == ReportPreamble(generatedOn) + Map(filtered, ReportRow) + [""]
  {
    var lines := ReportPreamble(generatedOn) + Map(filtered, ReportRow);
    PreambleAvoidsNewline(generatedOn);
    forall k | 0 <= k < |lines|
      ensures '\n' !in lines[k]
    {
      if k >= 6 {
        var p := filtered[k - 6];
        ReportValuesAvoid(p, '\n');
        JoinAvoids(ReportValues(p), "\t", '\n');
      } else {
        assert lines[k] == ReportPreamble(generatedOn)[k];
      }
    }
    SplitTerminated(lines, '\n');
  }

  /** A record's report line splits at tabs into its six values. */
  lemma ReportRowFields(p: Patient)
    requires forall j :: 0 <= j < 6 ==> '\t' !in ReportValues(p)[j]
    ensures Split(ReportRow(p), '\t') == ReportValues(p)
  {
    SplitJoin(ReportValues(p), '\t');
  }
}

=== FILE: seqs.dfy ===
/** Order-preserving selection over sequences, the shape shared by every
    filter of the dashboard (`Array.prototype.filter`, list comprehensions). */
module Seqs {

  /** Keeps, in order, the elements of `s` that satisfy `keep`. */
  function Filter<T>(s: seq<T>, keep: T -> bool): (r: seq<T>)
    ensures |r| <= |s|
    ensures forall k :: 0 <= k < |r| ==> r[k] in s && keep(r[k])
    ensures forall k :: 0 <= k < |s| && keep(s[k]) ==> s[k] in r
  {
    if |s| == 0 then []
    else (if keep(s[0]) then [s[0]] else []) + Filter(s[1..], keep)
  }

  /** `idx` lists, strictly increasing, the positions of `b` at which the
      elements of `a` are found. */
  ghost predicate Embeds<T>(a: seq<T>, b: seq<T>, idx: seq<int>) {
    && |idx| == |a|
    && (forall k :: 0 <= k < |idx| ==> 0 <= idx[k] < |b| && a[k] == b[idx[k]])
    && (forall k, l :: 0 <= k < l < |idx| ==> idx[k] < idx[l])
  }

  /** `a` is obtained from `b` by deleting elements without reordering. */
  ghost predicate IsSubsequence<T>(a: seq<T>, b: seq<T>) {
    exists idx :: Embeds(a, b, idx)
  }

  function Shift(idx: seq<int>): (r: seq<int>)
    ensures |r| == |idx|
    ensures forall k :: 0 <= k < |idx| ==> r[k] == idx[k] + 1
  {
    if |idx| == 0 then [] else [idx[0] + 1] + Shift(idx[1..])
  }

  lemma ShiftEmbeds<T>(a: seq<T>, s: seq<T>, tail: seq<int>)
    requires |s| > 0 && Embeds(a, s[1..], tail)
    ensures Embeds(a, s, Shift(tail))
    ensures forall k :: 0 <= k < |tail| ==> Shift(tail)[k] >= 1
  {
    var shifted := Shift(tail);
    forall k | 0 <= k < |shifted|
      ensures 0 <= shifted[k] < |s| && a[k] == s[shifted[k]]
    {
      assert s[1..][tail[k]] == s[tail[k] + 1];
    }
  }

  lemma ConsEmbeds<T>(a: seq<T>, s: seq<T>, idx: seq<int>)
    requires |s| > 0 && Embeds(a, s, idx)
    requires forall k :: 0 <= k < |idx| ==> idx[k] >= 1
    ensures Embeds([s[0]] + a, s, [0] + idx)
  {
    var idx' := [0] + idx;
    var a' := [s[0]] + a;
    forall k | 0 < k < |idx'|
      ensures idx'[k] == idx[k - 1] && a'[k] == a[k - 1]
    {
    }
  }

  /** The positions of `s` that the filter keeps. */
  lemma {:induction false} FilterPositions<T>(s: seq<T>, keep: T -> bool) returns (idx: seq<int>)
    ensures Embeds(Filter(s, keep), s, idx)
  {
    if |s| == 0 {
      idx := [];
    } else {
      var rest := Filter(s[1..], keep);
      var tail := FilterPositions(s[1..], keep);
      ShiftEmbeds(rest, s, tail);
      if keep(s[0]) {
        ConsEmbeds(rest, s, Shift(tail));
        idx := [0] + Shift(tail);
      } else {
        idx := Shift(tail);
      }
    }
  }

  /** A filter result is an order-preserving subsequence of its input. */
  lemma FilterIsSubsequence<T>(s: seq<T>, keep: T -> bool)
    ensures IsSubsequence(Filter(s, keep), s)
  {
    var idx := FilterPositions(s, keep);
  }

  /** Filtering twice with the same predicate is filtering once. */
  lemma {:induction false} FilterIdempotent<T>(s: seq<T>, keep: T -> bool)
    ensures Filter(Filter(s, keep), keep) == Filter(s, keep)
  {
    if |s| > 0 {
      FilterIdempotent(s[1..], keep);
      var rest := Filter(s[1..], keep);
      if keep(s[0]) {
        assert Filter(s, keep) == [s[0]] + rest;
        assert ([s[0]] + rest)[1..] == rest;
      } else {
        assert Filter(s, keep) == rest;
      }
    }
  }

  /** When every element passes, the filter returns its input unchanged. */
  lemma {:induction false} FilterKeepsAll<T>(s: seq<T>, keep: T -> bool)
    requires forall k :: 0 <= k < |s| ==> keep(s[k])
    ensures Filter(s, keep) == s
  {
    if |s| > 0 {
      FilterKeepsAll(s[1..], keep);
      assert [s[0]] + s[1..] == s;
    }
  }

  /** The filter is empty exactly when no element passes. */
  lemma FilterEmpty<T>(s: seq<T>, keep: T -> bool)
    ensures |Filter(s, keep)| == 0 <==> forall k :: 0 <= k < |s| ==> !keep(s[k])
  {
    if |Filter(s, keep)| == 0 {
      forall k | 0 <= k < |s| ensures !keep(s[k]) {
        assert s[k] in s;
      }
    } else {
      assert Filter(s, keep)[0] in Filter(s, keep);
    }
  }

  /** Filtering a sequence extended at the end extends the filter at most by that element. */
  lemma {:induction false} FilterSnoc<T>(s: seq<T>, x: T, keep: T -> bool)
    ensures Filter(s + [x], keep) == Filter(s, keep) + (if keep(x) then [x] else [])
  {
    if |s| == 0 {
      assert s + [x] == [x];
    } else {
      assert (s + [x])[1..] == s[1..] + [x];
      FilterSnoc(s[1..], x, keep);
    }
  }

  /** Applies `f` to every element, keeping the order. */
  function Map<T, U>(s: seq<T>, f: T -> U): (r: seq<U>)
    ensures |r| == |s|
    ensures forall k :: 0 <= k < |s| ==> r[k] == f(s[k])
  {
    if |s| == 0 then [] else [f(s[0])] + Map(s[1..], f)
  }

  lemma {:induction false} MapAppend<T, U>(a: seq<T>, b: seq<T>, f: T -> U)
    ensures Map(a + b, f) == Map(a, f) + Map(b, f)
  {
  }

  /** Two sequences of equal length whose elements are kept alike and
      projected alike, position by position, filter and project alike. */
  lemma {:induction false} FilterMapCorrespond<A, B, C>(
    s: seq<A>, t: seq<B>, keepS: A -> bool, keepT: B -> bool, f: A -> C, g: B -> C)
    requires |s| == |t|
    requires forall k :: 0 <= k < |s| ==> keepS(s[k]) == keepT(t[k]) && f(s[k]) == g(t[k])
    ensures Map(Filter(s, keepS), f) == Map(Filter(t, keepT), g)
  {
    if |s| > 0 {
      FilterMapCorrespond(s[1..], t[1..], keepS, keepT, f, g);
      var headS := if keepS(s[0]) then [s[0]] else [];
      var headT := if keepT(t[0]) then [t[0]] else [];
      MapAppend(headS, Filter(s[1..], keepS), f);
      MapAppend(headT, Filter(t[1..], keepT), g);
    }
  }
}

=== FILE: strings.dfy ===
/** String operations the dashboard relies on, with JavaScript's meaning:
    lower-casing, `includes`, `join`, `split` on one character, `repeat`, and
    the quote doubling of the spreadsheet export. */
module Strings {

  import opened Optional

  /** Lower-cases an ASCII capital letter; every other character is kept. */
  function LowerChar(c: char): char {
    if 'A' <= c <= 'Z' then (c as int + 32) as char else c
  }

  /** `s.toLowerCase()` restricted to ASCII letters. */
  function Lower(s: string): (r: string)
    ensures |r| == |s|
    ensures forall i :: 0 <= i < |s| ==> r[i] == LowerChar(s[i])
  {
    if |s| == 0 then [] else [LowerChar(s[0])] + Lower(s[1..])
  }

  /** `t` occurs in `s` starting at index `i`. */
  ghost predicate OccursAt(s: string, t: string, i: int) {
    0 <= i && i + |t| <= |s| && s[i..i + |t|] == t
  }

  lemma OccursAtShift(s: string, t: string)
    requires |s| > 0 && |t| <= |s| && s[..|t|] != t
    ensures (exists i :: OccursAt(s, t, i)) <==> (exists j :: OccursAt(s[1..], t, j))
  {
    if exists i :: OccursAt(s, t, i) {
      var i :| OccursAt(s, t, i);
      assert i != 0;
      assert s[1..][i - 1..i - 1 + |t|] == s[i..i + |t|];
      assert OccursAt(s[1..], t, i - 1);
    }
    if exists j :: OccursAt(s[1..], t, j) {
      var j :| OccursAt(s[1..], t, j);
      assert s[1..][j..j + |t|] == s[j + 1..j + 1 + |t|];
      assert OccursAt(s, t, j + 1);
    }
  }

  /** `s.includes(t)`: `t` is a contiguous piece of `s`. */
  function Contains(s: string, t: string): (r: bool)
    ensures r <==> exists i :: OccursAt(s, t, i)
    decreases |s|
  {
    if |t| > |s| then
      false
    else if s[..|t|] == t then
      assert OccursAt(s, t, 0);
      true
    else
      OccursAtShift(s, t);
      Contains(s[1..], t)
  }

  /** The empty string is part of every string. */
  lemma ContainsEmpty(s: string)
    ensures Contains(s, "")
  {
    assert OccursAt(s, "", 0);
  }

  /** A string cannot contain a piece holding a character it lacks. */
  lemma MissingCharNotContained(s: string, t: string, c: char)
    requires c in t && c !in s
    ensures !Contains(s, t)
  {
    var k :| 0 <= k < |t| && t[k] == c;
    forall i | 0 <= i
      ensures !OccursAt(s, t, i)
    {
      if i + |t| <= |s| {
        assert s[i..i + |t|][k] == s[i + k];
        assert s[i + k] in s;
      }
    }
  }

  /** Number of occurrences of `c` in `s`. */
  function Occurrences(s: string, c: char): nat {
    if |s| == 0 then 0 else (if s[0] == c then 1 else 0) + Occurrences(s[1..], c)
  }

  lemma {:induction false} OccurrencesAppend(a: string, b: string, c: char)
    ensures Occurrences(a + b, c) == Occurrences(a, c) + Occurrences(b, c)
  {
    if |a| > 0 {
      assert (a + b)[1..] == a[1..] + b;
      OccurrencesAppend(a[1..], b, c);
    } else {
      assert a + b == b;
    }
  }

  lemma {:induction false} OccurrencesAbsent(s: string, c: char)
    requires c !in s
    ensures Occurrences(s, c) == 0
  {
    if |s| > 0 {
      assert c !in s[1..];
      OccurrencesAbsent(s[1..], c);
    }
  }

  /** `parts.join(sep)`. */
  function Join(parts: seq<string>, sep: string): string {
    if |parts| == 0 then ""
    else if |parts| == 1 then parts[0]
    else parts[0] + sep + Join(parts[1..], sep)
  }

  /** A join holds a character only if a piece or the separator does. */
  lemma {:induction false} JoinAvoids(parts: seq<string>, sep: string, c: char)
    requires c !in sep
    requires forall k :: 0 <= k < |parts| ==> c !in parts[k]
    ensures c !in Join(parts, sep)
  {
    if |parts| > 1 {
      JoinAvoids(parts[1..], sep, c);
    }
  }

  /** A join ends with its last piece. */
  lemma {:induction false} JoinEndsWithLast(parts: seq<string>, sep: string)
    requires |parts| >= 1
    ensures var j := Join(parts, sep); var last := parts[|parts| - 1];
      |last| <= |j| && j[|j| - |last|..] == last
  {
    if |parts| > 1 {
      JoinEndsWithLast(parts[1..], sep);
    }
  }

  /** `s.split(c)`: the maximal pieces of `s` free of `c`, always at least one. */
  function Split(s: string, c: char): (r: seq<string>)
    ensures |r| == Occurrences(s, c) + 1
    ensures forall k :: 0 <= k < |r| ==> c !in r[k]
  {
    if |s| == 0 then [""]
    else
      var rest := Split(s[1..], c);
      if s[0] == c then [""] + rest
      else [[s[0]] + rest[0]] + rest[1..]
  }

  /** Joining the pieces of a split with the separator restores the string. */
  lemma {:induction false} JoinSplit(s: string, c: char)
    ensures Join(Split(s, c), [c]) == s
  {
    if |s| > 0 {
      JoinSplit(s[1..], c);
      var rest := Split(s[1..], c);
      if s[0] == c {
        assert Split(s, c) == [""] + rest;
        assert ([""] + rest)[1..] == rest;
      } else {
        var r := Split(s, c);
        assert r == [[s[0]] + rest[0]] + rest[1..];
        if |rest| == 1 {
          assert s == [s[0]] + rest[0];
        } else {
          assert r[1..] == rest[1..];
          assert Join(rest, [c]) == rest[0] + [c] + Join(rest[1..], [c]);
          assert s == [s[0]] + s[1..];
        }
      }
    }
  }

  /** Splitting a string that starts with a separator-free piece `a`. */
  lemma {:induction false} SplitPrefix(a: string, rest: string, c: char)
    requires c !in a
    ensures Split(a + rest, c) == [a + Split(rest, c)[0]] + Split(rest, c)[1..]
  {
    if |a| > 0 {
      assert (a + rest)[1..] == a[1..] + rest;
      assert c !in a[1..];
      SplitPrefix(a[1..], rest, c);
      assert [a[0]] + (a[1..] + Split(rest, c)[0]) == a + Split(rest, c)[0];
    } else {
      var r := Split(rest, c);
      assert a + rest == rest;
      assert a + r[0] == r[0];
      assert r == [r[0]] + r[1..];
    }
  }

  /** Splitting undoes joining when no piece holds the separator. */
  lemma {:induction false} SplitJoin(parts: seq<string>, c: char)
    requires |parts| >= 1
    requires forall k :: 0 <= k < |parts| ==> c !in parts[k]
    ensures Split(Join(parts, [c]), c) == parts
  {
    if |parts| == 1 {
      SplitPrefix(parts[0], "", c);
      assert parts[0] + "" == parts[0];
    } else {
      var tail := Join(parts[1..], [c]);
      SplitJoin(parts[1..], c);
      assert parts[0] + [c] + tail == parts[0] + ([c] + tail);
      SplitPrefix(parts[0], [c] + tail, c);
      assert ([c] + tail)[1..] == tail;
      assert Split([c] + tail, c) == [""] + parts[1..];
      assert parts[0] + "" == parts[0];
      assert parts == [parts[0]] + parts[1..];
    }
  }

  /** A CSV reader's field split: the pieces between commas that lie outside
      double quotes, the quotes kept. `quoted` says whether an opening quote
      is still unmatched at the start of `s`. */
  function SplitCsv(s: string, quoted: bool): (r: seq<string>)
    ensures |r| >= 1
  {
    if |s| == 0 then [""]
    else
      var rest := SplitCsv(s[1..], if s[0] == '"' then !quoted else quoted);
      if s[0] == ',' && !quoted then [""] + rest
      else [[s[0]] + rest[0]] + rest[1..]
  }

  /** A CSV field a reader takes back verbatim: bare text free of commas and
      quotes, or text free of quotes wrapped in one pair of quotes. */
  predicate CsvField(f: string) {
    || ('"' !in f && ',' !in f)
    || (|f| >= 2 && f[0] == '"' && f[|f| - 1] == '"' && '"' !in f[1..|f| - 1])
  }

  /** Quote-free text passes through the reader unsplit, inside quotes or
      (when it has no comma) outside them. */
  lemma {:induction false} SplitCsvPlain(a: string, rest: string, quoted: bool)
    requires '"' !in a && (quoted || ',' !in a)
    ensures SplitCsv(a + rest, quoted) == [a + SplitCsv(rest, quoted)[0]] + SplitCsv(rest, quoted)[1..]
  {
    if |a| > 0 {
      assert (a + rest)[1..] == a[1..] + rest;
      assert (a + rest)[0] == a[0];
      SplitCsvPlain(a[1..], rest, quoted);
      assert [a[0]] + (a[1..] + SplitCsv(rest, quoted)[0]) == a + SplitCsv(rest, quoted)[0];
    } else {
      var r := SplitCsv(rest, quoted);
      assert a + rest == rest;
      assert a + r[0] == r[0];
      assert r == [r[0]] + r[1..];
    }
  }

  /** A field is read back whole, followed by what the rest of the line gives. */
  lemma SplitCsvField(f: string, rest: string)
    requires CsvField(f)
    ensures SplitCsv(f + rest, false) == [f + SplitCsv(rest, false)[0]] + SplitCsv(rest, false)[1..]
  {
    if '"' !in f && ',' !in f {
      SplitCsvPlain(f, rest, false);
    } else {
      var inner := f[1..|f| - 1];
      var tail := "\"" + rest;
      assert f + rest == "\"" + (inner + tail);
      assert (f + rest)[1..] == inner + tail;
      SplitCsvPlain(inner, tail, true);
      assert tail[1..] == rest;
      var r := SplitCsv(rest, false);
      assert SplitCsv(tail, true) == ["\"" + r[0]] + r[1..];
      assert f == "\"" + inner + "\"";
      assert "\"" + (inner + ("\"" + r[0])) == f + r[0];
    }
  }

  /** Reading a comma-joined line of CSV fields gives the fields back. */
  lemma {:induction false} SplitCsvJoin(parts: seq<string>)
    requires |parts| >= 1
    requires forall k :: 0 <= k < |parts| ==> CsvField(parts[k])
    ensures SplitCsv(Join(parts, ","), false) == parts
  {
    if |parts| == 1 {
      SplitCsvField(parts[0], "");
      assert parts[0] + "" == parts[0];
    } else {
      var tail := Join(parts[1..], ",");
      SplitCsvJoin(parts[1..]);
      assert parts[0] + "," + tail == parts[0] + ("," + tail);
      SplitCsvField(parts[0], "," + tail);
      assert ("," + tail)[1..] == tail;
      assert SplitCsv("," + tail, false) == [""] + parts[1..];
      assert parts[0] + "" == parts[0];
      assert parts == [parts[0]] + parts[1..];
    }
  }

  /** Each line followed by the terminator `c`, the result of a `content += line + '\n'` loop. */
  function Terminated(lines: seq<string>, c: char): string {
    if |lines| == 0 then "" else lines[0] + [c] + Terminated(lines[1..], c)
  }

  /** Terminating every line is joining them with an empty last piece. */
  lemma {:induction false} TerminatedIsJoin(lines: seq<string>, c: char)
    ensures Terminated(lines, c) == Join(lines + [""], [c])
  {
    if |lines| > 0 {
      TerminatedIsJoin(lines[1..], c);
      assert (lines + [""])[1..] == lines[1..] + [""];
    }
  }

  /** Splitting terminated lines gives the lines back plus one empty piece. */
  lemma SplitTerminated(lines: seq<string>, c: char)
    requires forall k :: 0 <= k < |lines| ==> c !in lines[k]
    ensures Split(Terminated(lines, c), c) == lines + [""]
  {
    TerminatedIsJoin(lines, c);
    SplitJoin(lines + [""], c);
  }

  /** `String(c).repeat(n)`. */
  function Repeat(c: char, n: nat): (r: string)
    ensures |r| == n
    ensures forall i :: 0 <= i < n ==> r[i] == c
  {
    seq(n, _ => c)
  }

  /** A run of one character holds no other character. */
  lemma RepeatAvoids(c: char, n: nat, d: char)
    requires c != d
    ensures d !in Repeat(c, n)
  {
  }

  /** A field wrapped in double quotes, as in `"${text}"`. */
  function Quote(s: string): string {
    "\"" + s + "\""
  }

  /** `s.replace(/"/g, '""')`: every double quote written twice. */
  function DoubleQuotes(s: string): string {
    if |s| == 0 then ""
    else (if s[0] == '"' then "\"\"" else [s[0]]) + DoubleQuotes(s[1..])
  }

  /** Reads back a quote-doubled text: a lone double quote is malformed. */
  function UndoubleQuotes(s: string): Option<string> {
    if |s| == 0 then Some("")
    else if s[0] != '"' then
      match UndoubleQuotes(s[1..])
      case Some(t) => Some([s[0]] + t)
      case None => None
    else if |s| >= 2 && s[1] == '"' then
      match UndoubleQuotes(s[2..])
      case Some(t) => Some("\"" + t)
      case None => None
    else None
  }

  /** Quote doubling is undone by reading it back, so it loses nothing. */
  lemma {:induction false} UndoubleDoubled(s: string)
    ensures UndoubleQuotes(DoubleQuotes(s)) == Some(s)
  {
    if |s| > 0 {
      UndoubleDoubled(s[1..]);
      var d := DoubleQuotes(s[1..]);
      if s[0] == '"' {
        assert DoubleQuotes(s) == "\"\"" + d;
        assert ("\"\"" + d)[2..] == d;
      } else {
        assert DoubleQuotes(s) == [s[0]] + d;
        assert ([s[0]] + d)[1..] == d;
      }
      assert s == [s[0]] + s[1..];
    }
  }

  /** Strips the outer quotes of a spreadsheet cell and reads its doubled quotes back. */
  function DecodeQuotedCell(f: string): Option<string> {
    if |f| >= 2 && f[0] == '"' && f[|f| - 1] == '"' then UndoubleQuotes(f[1..|f| - 1])
    else None
  }

  /** A cell written as `"` + doubled text + `"` decodes to the text. */
  lemma DecodeQuotedCellRoundTrip(s: string)
    ensures DecodeQuotedCell(Quote(DoubleQuotes(s))) == Some(s)
  {
    var q := Quote(DoubleQuotes(s));
    assert q[1..|q| - 1] == DoubleQuotes(s);
    UndoubleDoubled(s);
  }

  lemma {:induction false} DoubleQuotesKeepsChar(s: string, c: char)
    requires c != '"' && c !in s
    ensures c !in DoubleQuotes(s)
  {
    if |s| > 0 {
      assert c !in s[1..];
      DoubleQuotesKeepsChar(s[1..], c);
    }
  }
}
